=== FILE: README.md ===
# Expense Manager — a Dafny model of its client-side logic

Expense Manager is a React/TypeScript single-page app for tracking personal
expenses. Its data lives in a Supabase backend. This project models the logic
the app's components run on that data, as pure functions over immutable values,
and proves what the screens promise about it:

- **Dashboard** (`dashboard.dfy`). The all-time total; the five-week bar chart
  (`calculateWeeklyExpenses`, future-dated expenses included); the last-month
  total and the "+/-$x than last month" line; the six most recent expenses; and
  the per-category totals over them.
- **Expense list** (`expenselist.dfy`). The empty state, and the grouping of
  expenses under a `EEEE, d` date label in first-occurrence order.
- **All-expenses browser** (`expensesmodal.dfy`). Its filter state and every
  event that changes it; the search-term editor (space, Enter, Backspace,
  remove); the date-range, category, OR-search and single-key sort the backend
  query expresses; the total; the date groups.
- **Edit-expense form** (`editexpense.dfy`). Loading an expense into the form;
  the tag and category pickers with their filters; the date picker; the
  update request and what success and failure leave behind; the calendar
  caption's month and year lists.
- **Add-category form** (`addcategory.dfy`). The icon table and its sections;
  the colour palette; the defaults; the submit flow with its three outcomes
  (no user, insert error, success).
- **Country selector** (`countryselector.dfy`). The country table, the search
  filter over name, code and dial code, the dial-code lookup of the selected
  country, and the picker's toggle and choice.

Shared modules:

- `domain.dfy`: the entities and sums of amounts.
- `dates.dfy`: the proleptic Gregorian calendar, day numbers and `yyyy-MM-dd`
  spelling.
- `amounts.dfy`: integer cents and their decimal text.
- `text.dfy`: ASCII lower-casing, substring search and trimming.
- `seqs.dfy`: filter, find and reverse.
- `ordering.dfy`: ordered sequences and a reference sort.
- `grouping.dfy`: one insertion-ordered group-by, used by the expense list,
  the browser and the icon picker.

Amounts are integer cents. Dates are calendar days (`Dates.Day`), and JavaScript
`Date` comparisons and differences become comparisons and differences of
`Dates.DayNumber`. Collections the app fetches from the backend are inputs to
the functions.

Behaviours of the code worth knowing, each proved:

- The dashboard's "than last month" figure is `total - lastMonthTotal`, the sum
  of every expense outside last month, not this month's total minus last
  month's. `Dashboard.DiffExample` gives 30 for amounts 10 (2024-03-01),
  20 (2024-03-15) and 5 (2024-02-20) on 2024-03-20.
- The browser's ordering uses one key and no `created_at` tie-break. The
  backend is free to return equal keys in any order (`ExpensesModal.NoTieBreak`).
- Search terms are deduplicated case-sensitively (`ExpensesModal.CaseSensitiveTerms`).
- Adding a search term never removes a shown expense once there is at least one
  term. Going from no terms to one term can narrow the list, because no terms
  means "no search filter" (`ExpensesModal.FirstTermNarrows`).
- The dashboard sign is two-way: `+` for zero and above, `-` below zero.

## Model

| member | source | states |
|---|---|---|
| Dashboard.WeekDiff | src/components/Dashboard.tsx:110 | the week index is the floor of the day distance from the expense to today divided by seven, and is negative exactly when the expense is dated after today |
| Dashboard.AddAtExisting | src/components/Dashboard.tsx:112-115 | adding an expense to a week already in the table adds its amount to that week's bucket and changes nothing else |
| Dashboard.AddAtFresh | src/components/Dashboard.tsx:112-115 | adding to a week key not in the table appends that key with a NaN amount, as `undefined + amount` does |
| Dashboard.WeeklyNoFuture | src/components/Dashboard.tsx:97-122 | with no expense dated after today, the chart is exactly W5, W4, W3, W2, W1, oldest first, each bar holding the sum of the expenses in that week |
| Dashboard.AccumulateAppend | src/components/Dashboard.tsx:108-116 | tallying a concatenation of two expense lists is tallying the first list and then the second |
| Dashboard.OldExpenseIgnored | src/components/Dashboard.tsx:112 | an expense five or more weeks old, anywhere in the list, leaves the chart unchanged |
| Dashboard.WeeklyFutureNaN | src/components/Dashboard.tsx:108-121 | any expense dated after today adds a bar beyond the five weekly ones, whose week number is zero or less and whose amount is NaN |
| Dashboard.WeeklyFutureExample | src/components/Dashboard.tsx:97-122 | one expense dated the day after today gives the six bars W0 = NaN, then W5 … W1 = 0 |
| Dashboard.WeeklyBounded | src/components/Dashboard.tsx:86-87 | with no future expense and non-negative amounts, the chart total is a number between 0 and the all-time total, and equals it when every expense is less than five weeks old |
| Dashboard.InLastMonthIsCalendarMonth | src/components/Dashboard.tsx:124-133 | an expense is inside the `[lastMonth, lastMonthEnd]` window exactly when its date is in the calendar month before today's, with January rolling back to December of the year before |
| Dashboard.LastMonthTotalIsCalendarMonth | src/components/Dashboard.tsx:124-135 | the last-month total is the sum of the expenses dated in the previous calendar month |
| Dashboard.LastMonthRollover | src/components/Dashboard.tsx:126-127 | for 2024-01-15, 2023-12-01 and 2023-12-31 are in last month; 2024-01-01 and 2023-11-30 are not |
| Dashboard.DiffIsOutsideLastMonth | src/components/Dashboard.tsx:82-90 | the total is the sum of every expense; the difference shown is the sum of the expenses outside last month, so it is never negative for non-negative amounts |
| Dashboard.DiffExample | src/components/Dashboard.tsx:82-90 | amounts 10 (2024-03-01), 20 (2024-03-15) and 5 (2024-02-20) on 2024-03-20 give total 35 and difference 30 |
| Dashboard.DiffDisplay | src/components/Dashboard.tsx:173 | the sign shown is `+` exactly when the difference is zero or more, and `-` otherwise |
| Dashboard.DiffDisplayRoundTrip | src/components/Dashboard.tsx:173 | the sign and the absolute value shown together give back the difference, and zero shows as `+0` |
| Dashboard.RecentExpenses | src/components/Dashboard.tsx:56-63 | the recent list holds min(6, store size) stored expenses, newest `created_at` first |
| Dashboard.RecentAreNewest | src/components/Dashboard.tsx:62-63 | the recent list is a sub-multiset of the store, and no expense left out was created later than any expense shown |
| Dashboard.CategoryTotals | src/components/Dashboard.tsx:227-230 | the i-th total shown is the sum of the recent expenses whose category is the i-th category |
| Dashboard.CategoryTotalsCover | src/components/Dashboard.tsx:227-230 | with distinct category ids, the category totals add up to the sum of the recent expenses that belong to some listed category |
| Dashboard.CategoryTotalsBounded | src/components/Dashboard.tsx:227-230 | for non-negative amounts, the category totals add up to at most the recent total, and to exactly it when every recent expense has a listed category |
| ExpenseList.Render | src/components/ExpenseList.tsx:20-26 | the "No expenses found" state shows exactly when the list is empty |
| ExpenseList.RenderPartitions | src/components/ExpenseList.tsx:11-18 | the date groups have distinct labels; each group holds exactly the expenses with its label, in list order, and is non-empty; every expense's label has a group; together the groups hold the list's expenses, each once |
| ExpenseList.RenderFirstOccurrence | src/components/ExpenseList.tsx:11-18 | groups appear in the order in which their labels first occur in the list |
| ExpenseList.RenderContiguous | src/components/ExpenseList.tsx:11-18 | when expenses with equal labels are adjacent, reading the groups in turn gives back the list itself |
| ExpenseList.SameDateSameGroup | src/components/ExpenseList.tsx:12-16 | two expenses with the same date are shown in the same group |
| ExpenseList.DistinctDatesMerge | src/components/ExpenseList.tsx:12 | 2024-01-01 and 2024-04-01 are both "Monday, 1" and so land in one group |
| ExpensesModal.CurrentMonthRange | src/components/ExpensesModal.tsx:65-74 | the default range runs from the first of today's month through today, and is not reversed |
| ExpensesModal.CurrentMonthSpelling | src/components/ExpensesModal.tsx:65-74 | the start is spelled as today's `yyyy-MM` followed by `-01`, and the end as today's `yyyy-MM-dd` |
| ExpensesModal.OpenForgets | src/components/ExpensesModal.tsx:80-98 | opening resets every filter, the sort and the sheets whatever the state before, the result satisfies the invariant, and closing changes nothing |
| ExpensesModal.AddTerm | src/components/ExpensesModal.tsx:211-220 | a term is appended, and only when it is non-empty and not already present; the old terms are kept in order |
| ExpensesModal.AddTermKeeps | src/components/ExpensesModal.tsx:211-220 | adding the trimmed input keeps the terms distinct, non-empty and trimmed |
| ExpensesModal.TypeInputAppends | src/components/ExpensesModal.tsx:211-220 | typing appends the trimmed input exactly when the value ends in a space and the trimmed input is new and non-empty; the box is cleared exactly when the value ends in a space |
| ExpensesModal.TypeInputKeepsWellFormed | src/components/ExpensesModal.tsx:269-272 | typing keeps the terms well formed |
| ExpensesModal.EnterAppends | src/components/ExpensesModal.tsx:274-279 | Enter appends the trimmed input exactly when it is new and non-empty, and clears the box whenever the trimmed input is non-empty |
| ExpensesModal.BackspacePops | src/components/ExpensesModal.tsx:280-281 | Backspace in an empty box removes the last term only |
| ExpensesModal.KeyDownKeepsWellFormed | src/components/ExpensesModal.tsx:274-281 | key presses keep the terms well formed |
| ExpensesModal.BackspaceUndoesEnter | src/components/ExpensesModal.tsx:274-281 | Enter with a new term followed by Backspace restores the terms |
| ExpensesModal.RemoveTerm | src/components/ExpensesModal.tsx:222-224 | removing a term drops every copy of it, keeps every other term in order, and changes nothing else |
| ExpensesModal.RemoveTermOnce | src/components/ExpensesModal.tsx:222-224 | with distinct terms, removing a present term shortens the list by exactly one |
| ExpensesModal.RemoveTermKeepsWellFormed | src/components/ExpensesModal.tsx:257 | the remove button keeps the terms well formed |
| ExpensesModal.RemoveUndoesAdd | src/components/ExpensesModal.tsx:211-224 | removing a term just added by typing restores the terms |
| ExpensesModal.CaseSensitiveTerms | src/components/ExpensesModal.tsx:211-220 | "food" is added next to "Food": duplicates are detected case-sensitively |
| ExpensesModal.ApplyKeepsInvariant | src/components/ExpensesModal.tsx:348-363 | every event keeps at most one selected category and well-formed terms |
| ExpensesModal.RunKeepsInvariant | src/components/ExpensesModal.tsx:55-62 | every sequence of events from a state satisfying the invariant ends in one |
| ExpensesModal.CategoryChoice | src/components/ExpensesModal.tsx:348-363 | after "All" the category filter passes every expense; after picking a category it passes exactly that category's expenses |
| ExpensesModal.Query | src/components/ExpensesModal.tsx:106-154 | the query for the current filters selects exactly the stored expenses in the date range, in the selected category if any, matching some term if any; each kept expense appears once per copy stored, ordered by the chosen key in the chosen direction |
| ExpensesModal.MoreTermsNeverShrink | src/components/ExpensesModal.tsx:126-137 | with at least one term, adding another term keeps every expense shown before (the terms are OR-combined) |
| ExpensesModal.FirstTermNarrows | src/components/ExpensesModal.tsx:126-137 | an expense shown with no terms disappears when the term "zzz" is entered |
| ExpensesModal.ReversedRangeIsEmpty | src/components/ExpensesModal.tsx:116-118 | a range whose end is before its start shows nothing |
| ExpensesModal.OpenShowsThisMonth | src/components/ExpensesModal.tsx:80-118 | the query for the filters as the reset leaves them selects an expense exactly when it is stored, in today's month and not after today |
| ExpensesModal.NoTieBreak | src/components/ExpensesModal.tsx:140-144 | two expenses with the same date may come back in either order, in both directions |
| ExpensesModal.TotalIsKeptSum | src/components/ExpensesModal.tsx:156 | the total shown is the sum of the kept expenses, whatever their order, and 0 when none are kept |
| ExpensesModal.ShownGroupsPartition | src/components/ExpensesModal.tsx:158-167 | the shown list's date groups have distinct labels, hold exactly their label's expenses, cover every shown expense, follow first occurrence and together hold as many expenses as are shown |
| EditExpense.PopulateLoads | src/components/EditExpenseModal.tsx:153-167 | opening with an expense loads its amount (the text reads back as the same cents), tag (a missing tag as the empty string), category and date, clears both search texts, closes every list and clears the error and the busy flag, whatever the form held; otherwise the form is untouched |
| EditExpense.FilteredTags | src/components/EditExpenseModal.tsx:230-232 | the tag suggestions are the known tags containing the search ignoring case, in their order |
| EditExpense.FilteredCategories | src/components/EditExpenseModal.tsx:240-242 | the category options are the categories whose name contains the search ignoring case, in their order |
| EditExpense.EmptySearchKeepsAll | src/components/EditExpenseModal.tsx:230-242 | an empty search lists every tag and every category |
| EditExpense.TagSuggestsItself | src/components/EditExpenseModal.tsx:230-232 | a known tag is suggested when its own text is typed, in its case or lower-cased |
| EditExpense.TypingTag | src/components/EditExpenseModal.tsx:354-364 | typing a tag sets the tag and the field text, and the suggestions show exactly when the text is non-empty and some tag matches; the other fields are unchanged |
| EditExpense.PickingTag | src/components/EditExpenseModal.tsx:234-238 | picking a suggestion sets the tag and the field text to it and hides the suggestions; the category, the category search and the other fields are unchanged |
| EditExpense.CategoryPicker | src/components/EditExpenseModal.tsx:244-250 | picking a listed category makes it the one shown as selected, clears the search, closes the list and changes nothing else |
| EditExpense.Submit | src/components/EditExpenseModal.tsx:199-204 | a submit sends nothing exactly when there is no expense to update |
| EditExpense.TypeCategory | src/components/EditExpenseModal.tsx:386-389 | typing in the category field sets the search to the text and opens the list, and changes nothing else (the selected category included) |
| EditExpense.TypingCategory | src/components/EditExpenseModal.tsx:386-397 | after typing, the list shows exactly the categories whose name contains the text ignoring case, the selection is kept; picking a listed one selects it, closes the list and clears the text |
| EditExpense.ToggleCalendar | src/components/EditExpenseModal.tsx:292 | the field's own click handler, taken alone, flips whether the calendar is open and changes nothing else |
| EditExpense.MouseDown | src/components/EditExpenseModal.tsx:173-182 | a press outside the day grid closes the calendar; a press inside it changes nothing; no other field changes |
| EditExpense.FieldClickOpens | src/components/EditExpenseModal.tsx:173-182 | a click on the date field (the document listener, then the field's handler) always leaves the calendar open and changes nothing else, so a second click changes nothing; a press outside closes it and a press inside the grid keeps it |
| EditExpense.PickDate | src/components/EditExpenseModal.tsx:306-311 | picking a day sets the date and closes the calendar, changing nothing else; a deselect leaves the form as it was |
| EditExpense.PickedDateIsSent | src/components/EditExpenseModal.tsx:292-311 | clicking the field and picking a day closes the calendar, keeps the other fields and makes that day the date the update sends; a deselect keeps the calendar open on the old date |
| EditExpense.SubmitCarriesFields | src/components/EditExpenseModal.tsx:207-215 | the update names the expense and carries the parsed amount, the tag, the category and the date from the form; after a failure the fields are kept with the failure message |
| EditExpense.Finish | src/components/EditExpenseModal.tsx:217-226 | the busy flag is always cleared; success notifies and closes; failure sets the failure message and does neither |
| EditExpense.SaveUnchanged | src/components/EditExpenseModal.tsx:207-215 | saving a freshly loaded expense sends back its own amount, tag (or empty), category and date, and the date's `yyyy-MM-dd` spelling reads back as that date |
| EditExpense.Years | src/components/EditExpenseModal.tsx:35 | the year list is the ten years from five before the shown year to four after it, increasing, and holds the shown year |
| EditExpense.Months | src/components/EditExpenseModal.tsx:34 | the month list is the first day of each of the shown year's twelve months, in calendar order |
| EditExpense.NeverBothOpen | src/components/EditExpenseModal.tsx:44-62 | from any state with at most one list open, every sequence of caption clicks keeps at most one open |
| EditExpense.CaptionPicks | src/components/EditExpenseModal.tsx:78-116 | picking a month shows that month of the shown year; picking a listed year keeps the month and stays within the ten-year window |
| AddCategory.IconNamesColumn | src/components/AddCategoryModal.tsx:39-74 | the icon table lists the 23 icons in the source's order |
| AddCategory.IconNamesDistinct | src/components/AddCategoryModal.tsx:39-74 | no icon appears twice, so icon names can key the buttons |
| AddCategory.PaletteDistinct | src/components/AddCategoryModal.tsx:76-80 | the palette has 15 distinct colours |
| AddCategory.Initial | src/components/AddCategoryModal.tsx:83-87 | the default icon is in the icon table and the default colour is in the palette |
| AddCategory.DefaultIconListed | src/components/AddCategoryModal.tsx:84 | the default icon is one of the listed icons |
| AddCategory.GroupedIconsShape | src/components/AddCategoryModal.tsx:128-133 | grouping the icons by section gives "Shopping & Retail", "Food & Dining", "Transportation", "Home & Utilities", "Health & Wellness" and "Entertainment", each with its own icons |
| AddCategory.GroupedIconsOrder | src/components/AddCategoryModal.tsx:128-133 | the sections appear in table order, hold 4, 4, 4, 4, 3 and 4 icons, and read in turn give back the table |
| AddCategory.GroupedIconsPartition | src/components/AddCategoryModal.tsx:128-133 | the sections have distinct names, each holds exactly the icons of its section, and every icon's section is shown |
| AddCategory.HandleSubmit | src/components/AddCategoryModal.tsx:89-124 | submitting always ends not busy; an insert is sent exactly when a user is signed in; the parent is notified exactly when the insert succeeds |
| AddCategory.NoUserNoInsert | src/components/AddCategoryModal.tsx:95-99 | with no signed-in user nothing is sent, the form stays open, and only its error (the "No authenticated user found" message) and busy flag change |
| AddCategory.SuccessResets | src/components/AddCategoryModal.tsx:101-116 | on success the insert carries the name, icon, colour and user id, and the form is reset to its defaults and closed |
| AddCategory.FailureKeepsFields | src/components/AddCategoryModal.tsx:110-119 | on an insert error the fields are kept, the error's message (or the fallback message for a non-Error) is shown, and the form neither closes nor notifies |
| CountrySelector.Filtered | src/components/CountrySelector.tsx:17-21 | the listed countries are those whose name or code contains the search ignoring case, or whose dial code contains it, in table order |
| CountrySelector.EmptySearchListsAll | src/components/CountrySelector.tsx:17-21 | an empty search lists the whole table |
| CountrySelector.FoundByOwnFields | src/components/CountrySelector.tsx:17-21 | every country is listed when its name, lower-cased name, code or dial code is typed |
| CountrySelector.NoResultsIffNoMatch | src/components/CountrySelector.tsx:90-94 | "No countries found" shows exactly when no country matches the search |
| CountrySelector.SelectedIsFirstMatch | src/components/CountrySelector.tsx:23 | the shown country is the first table entry with the value as dial code, and there is none exactly when no entry has it |
| CountrySelector.Choose | src/components/CountrySelector.tsx:76-80 | choosing a country reports its dial code, closes the list and clears the search |
| CountrySelector.DisabledStaysClosed | src/components/CountrySelector.tsx:39 | a disabled picker never opens, and two toggles of an enabled one restore it |
| CountrySelector.ChoiceShowsDialCode | src/components/CountrySelector.tsx:46 | after a choice the button shows an entry with the chosen dial code, the chosen country itself when it is the first entry |
| CountrySelector.CanadaShowsUnitedStates | src/data/countries.ts:21 | choosing Canada stores "+1", and the button then shows the United States entry |
| CountrySelector.ReopenListsAll | src/components/CountrySelector.tsx:76-80 | reopening after a choice lists the whole table again |
| CountrySelector.ClickOutside | src/components/CountrySelector.tsx:26-28 | a click outside closes the list and keeps the search text |
| CountrySelector.TypeSearch | src/components/CountrySelector.tsx:67 | typing changes the search text only, not whether the list is open |
| CountrySelector.SearchSurvivesClickOutside | src/components/CountrySelector.tsx:25-67 | typing into the open list shows the matching entries; a click outside hides them; reopening shows the same matches again, since only a choice clears the search; a disabled toggle keeps them hidden |
| CountrySelector.CodesDistinct | src/data/countries.ts:9-38 | the country codes, which key the list, are distinct |
| Amounts.FormatCents | src/components/EditExpenseModal.tsx:155 | the amount text is non-empty and starts with `-` exactly for negative amounts |
| Amounts.CentsRoundTrip | src/components/EditExpenseModal.tsx:207-210 | reading back the text an amount is shown as gives the same amount in cents |
| Amounts.FormatExamples | src/components/EditExpenseModal.tsx:155 | 1250 cents show as "12.5", 1200 as "12", -5 as "-0.05" |
| Amounts.ParseExample | src/components/EditExpenseModal.tsx:210 | "12.50" reads as 1250 cents |
| Dates.DayNumberOrder | src/components/Dashboard.tsx:132 | day numbers order dates as the calendar does, and two dates have equal day numbers exactly when they are the same date |
| Dates.WithinMonthBounds | src/components/Dashboard.tsx:126-132 | a date lies between the first and the last day of a month exactly when it is in that month |
| Dates.DayZeroIsLastOfPreviousMonth | src/components/Dashboard.tsx:127 | day 0 of a month is the day before its first, the last day of the month before |
| Dates.PreviousMonth | src/components/Dashboard.tsx:126 | the month before January is December of the year before; otherwise the month number drops by one |
| Dates.IsoRoundTrip | src/components/EditExpenseModal.tsx:213 | a date's `yyyy-MM-dd` spelling reads back as the same date |
| Dates.IsoInjective | src/components/ExpensesModal.tsx:116-118 | two dates are spelled the same exactly when they are equal, so comparing spellings compares dates |
| Domain.SumPermutation | src/components/ExpensesModal.tsx:156 | the sum of amounts does not depend on order |
| Domain.SumFilterBound | src/components/Dashboard.tsx:129-134 | with non-negative amounts, the sum over a filter is between 0 and the sum over all, and equal to it when every expense passes |
| Domain.SumFilterDisjoint | src/components/Dashboard.tsx:89-90 | the sum over the union of two disjoint filters is the sum of the two sums |
| Ordering.InsertOrdered | src/components/ExpensesModal.tsx:140-144 | inserting into an ordered list keeps it ordered |
| Ordering.Sort | src/components/ExpensesModal.tsx:140-144 | the reference ordering is a permutation of its input, ordered by the key in the chosen direction |
| Ordering.ReverseOrdered | src/components/ExpensesModal.tsx:455-458 | reversing a list ordered one way gives a list ordered the other way |
| Seqs.Find | src/components/CountrySelector.tsx:23 | the search finds nothing exactly when no element passes, and whatever it finds is an element that passes |
| Seqs.FilterIsSubsequence | src/components/CountrySelector.tsx:17-21 | a filter keeps the elements it keeps in their original order |
| Grouping.GroupByPartition | src/components/ExpenseList.tsx:11-18 | groups have distinct keys, each holds exactly its key's elements in order and is non-empty, and every element's key has a group |
| Grouping.GroupBySizes | src/components/ExpenseList.tsx:11-18 | the groups together hold the input's elements, each once |
| Grouping.GroupByFirstOccurrence | src/components/ExpenseList.tsx:30 | groups come in the order in which their keys first occur |
| Grouping.GroupByContiguous | src/components/ExpenseList.tsx:11-18 | when equal keys are adjacent, the groups read in turn give back the input |
| Grouping.GroupByAppendBlock | src/components/AddCategoryModal.tsx:128-133 | appending a block of elements with one new key adds exactly one group at the end |
| Grouping.GroupByReorders | src/components/ExpenseList.tsx:30 | when equal keys are not adjacent, the groups read in turn reorder the input: [1, 2, 1] gives [1, 1, 2] |
| Text.ContainsIffOccurs | src/components/CountrySelector.tsx:18-20 | `includes` holds exactly when the needle occurs at some position |
| Text.ToLowerIdempotent | src/components/CountrySelector.tsx:18 | lower-casing twice is lower-casing once |
| Text.Trim | src/components/ExpensesModal.tsx:213 | trimming removes only JavaScript whitespace (every space separator, the line terminators, tab, vertical tab, form feed and U+FEFF) from the two ends and leaves a slice whose ends are not whitespace, empty exactly when the input is all whitespace |
| Text.TrimIdeographicSpace | src/components/ExpensesModal.tsx:213 | a leading ideographic space (U+3000) and a trailing no-break space are trimmed like ASCII spaces: both inputs give "lunch" |

## Left out

- The Supabase calls (select, insert, update, the `get_distinct_tags` RPC and the session lookup). The collections they return and the signed-in user are parameters; the outcome of the category insert and of the expense update is a parameter too (`AddCategory.HandleSubmit`, `EditExpense.Finish`).
- Failed fetches. When the browser's query fails, the model does not show it keeping the previous list (src/components/ExpensesModal.tsx:146-153). When the dashboard gets no data back, the model does not show it keeping its previous totals, chart and lists (src/components/Dashboard.tsx:38-95). Likewise, a failed tag fetch keeps the previous tags, which the model does not show either. The model computes each screen only from a fetch that succeeded.
- Response order and stale responses. Each screen is computed from the response to the current filters. The source keeps whichever response arrives last, and responses can arrive out of order, so it can show a stale list (src/components/ExpensesModal.tsx:100-104, 150). On opening, the first fetch still uses the previous session's filters, because the reset at src/components/ExpensesModal.tsx:80-98 has not yet taken effect. The modal stays mounted while closed (src/components/Dashboard.tsx:286), so the previous list and total stay on screen until a response arrives. Overlapping dashboard fetches race in the same way (src/components/Dashboard.tsx:38-95).
- The SQL the search builds is not modelled as text. A term is read as a substring test on the lower-cased tag or category name; `%`, `_` and quotes in a term (LIKE wildcards and injection) are not modelled.
- The order the backend gives to rows with equal sort keys: any permutation ordered by the key is accepted.
- Floating point. Amounts are integer cents, so `Math.round`, `toFixed(2)`, `Number(...)` on strings and the JavaScript number width are not modelled.
- Amounts.ParseCents: reads only an optional `-`, digits and at most two decimals. Whitespace, exponents, `+`, longer fractions and the prefix `parseFloat` accepts before junk give `None` instead of a number, and `None` stands for NaN.
- Amounts.FormatCents: never produces JavaScript's exponent form, which cents in the app's range do not reach.
- Time zones and clock time. "Today" is a calendar day parameter, and the gap between `toISOString` (UTC) and local dates is not modelled.
- Unicode case folding: `toLowerCase` is modelled on ASCII letters only.
- EditExpense.SaveUnchanged: the `yyyy-MM-dd` read-back is stated for years 1 to 9999 only, the years the four-digit spelling covers.
- Rendering, styling, icons, flags and focus handling. The overlay click and the calendar's own day grid (react-day-picker) are out too; both click-outside handlers are modelled.
- The amount input's change handler and the `goToMonth` missing-navigation guard: they only copy the value or test for a library object.
- Clearing a date input in the browser's date sheet. The model always holds both bounds.
- The unused week-start computation in `calculateWeeklyExpenses`. Its result is never read.
- The `e.amount` string coercion in the category totals: amounts are numbers in the model.
- AddExpenseModal, AuthForm and App, which are not part of this model, and the `WeeklyLimit` type, which nothing uses.

=== FILE: addcategory.dfy ===
/** The new-category form: the icon and colour tables, the icon grid grouped
    by section, the defaults, and what a submission does to the form. */
module AddCategory {

  import opened Seqs
  import opened Grouping

  /** An entry of the icon table; the component itself is left out. */
  datatype IconOption = IconOption(name: string, group: string)

  const Shopping := "Shopping & Retail"
  const Food := "Food & Dining"
  const Transport := "Transportation"
  const HomeUtilities := "Home & Utilities"
  const Health := "Health & Wellness"
  const Entertainment := "Entertainment"

  const ShoppingIcons: seq<IconOption> := [
    IconOption("ShoppingCart", Shopping), IconOption("ShoppingBag", Shopping),
    IconOption("Store", Shopping), IconOption("Gift", Shopping)]
  const FoodIcons: seq<IconOption> := [
    IconOption("Utensils", Food), IconOption("Coffee", Food),
    IconOption("Pizza", Food), IconOption("Wine", Food)]
  const TransportIcons: seq<IconOption> := [
    IconOption("Car", Transport), IconOption("Bus", Transport),
    IconOption("Train", Transport), IconOption("Plane", Transport)]
  const HomeIcons: seq<IconOption> := [
    IconOption("Home", HomeUtilities), IconOption("Lightbulb", HomeUtilities),
    IconOption("Wifi", HomeUtilities), IconOption("Smartphone", HomeUtilities)]
  const HealthIcons: seq<IconOption> := [
    IconOption("Stethoscope", Health), IconOption("Heart", Health), IconOption("Dumbbell", Health)]
  const EntertainmentIcons: seq<IconOption> := [
    IconOption("Tv", Entertainment), IconOption("Music", Entertainment),
    IconOption("Film", Entertainment), IconOption("Gamepad", Entertainment)]

  /** `ICON_OPTIONS`, written section by section as the table is. */
  const IconOptions: seq<IconOption> :=
    ShoppingIcons + FoodIcons + TransportIcons + HomeIcons + HealthIcons + EntertainmentIcons

  const ColorOptions: seq<string> := [
    "#FF6B6B", "#4ECDC4", "#45B7D1", "#96CEB4", "#FFEEAD",
    "#D4A5A5", "#9B5DE5", "#F15BB5", "#00BBF9", "#00F5D4",
    "#FEE440", "#8AC926", "#FF99C8", "#6A4C93", "#B5179E"
  ]

  const DefaultIcon := "ShoppingCart"

  /** The names column of a list of options. */
  function IconNames(os: seq<IconOption>): (ns: seq<string>)
    ensures |ns| == |os| && forall i :: 0 <= i < |os| ==> ns[i] == os[i].name
  {
    if os == [] then [] else [os[0].name] + IconNames(os[1..])
  }

  lemma IconNamesAppend(a: seq<IconOption>, b: seq<IconOption>)
    ensures IconNames(a + b) == IconNames(a) + IconNames(b)
  {
  }

  const ShoppingNames: seq<string> := ["ShoppingCart", "ShoppingBag", "Store", "Gift"]
  const FoodNames: seq<string> := ["Utensils", "Coffee", "Pizza", "Wine"]
  const TransportNames: seq<string> := ["Car", "Bus", "Train", "Plane"]
  const HomeNames: seq<string> := ["Home", "Lightbulb", "Wifi", "Smartphone"]
  const HealthNames: seq<string> := ["Stethoscope", "Heart", "Dumbbell"]
  const EntertainmentNames: seq<string> := ["Tv", "Music", "Film", "Gamepad"]

  /** The names column of the table. */
  lemma IconNamesColumn()
    ensures IconNames(IconOptions) == [
      "ShoppingCart", "ShoppingBag", "Store", "Gift", "Utensils", "Coffee", "Pizza", "Wine",
      "Car", "Bus", "Train", "Plane", "Home", "Lightbulb", "Wifi", "Smartphone",
      "Stethoscope", "Heart", "Dumbbell", "Tv", "Music", "Film", "Gamepad"]
  {
    BlockColumns();
    NamesLiteral();
  }

  lemma BlockColumns()
    ensures IconNames(IconOptions) ==
      ShoppingNames + FoodNames + TransportNames + HomeNames + HealthNames + EntertainmentNames
  {
    var p1 := ShoppingIcons;
    var p2 := p1 + FoodIcons;
    var p3 := p2 + TransportIcons;
    var p4 := p3 + HomeIcons;
    var p5 := p4 + HealthIcons;
    FirstBlockNames();
    LastBlockNames();
    IconNamesAppend(p1, FoodIcons);
    IconNamesAppend(p2, TransportIcons);
    IconNamesAppend(p3, HomeIcons);
    IconNamesAppend(p4, HealthIcons);
    IconNamesAppend(p5, EntertainmentIcons);
  }

  lemma NamesLiteral()
    ensures ShoppingNames + FoodNames + TransportNames + HomeNames + HealthNames + EntertainmentNames == [
      "ShoppingCart", "ShoppingBag", "Store", "Gift", "Utensils", "Coffee", "Pizza", "Wine",
      "Car", "Bus", "Train", "Plane", "Home", "Lightbulb", "Wifi", "Smartphone",
      "Stethoscope", "Heart", "Dumbbell", "Tv", "Music", "Film", "Gamepad"]
  {
  }

  lemma FirstBlockNames()
    ensures IconNames(ShoppingIcons) == ShoppingNames
    ensures IconNames(FoodIcons) == FoodNames
    ensures IconNames(TransportIcons) == TransportNames
  {
  }

  lemma LastBlockNames()
    ensures IconNames(HomeIcons) == HomeNames
    ensures IconNames(HealthIcons) == HealthNames
    ensures IconNames(EntertainmentIcons) == EntertainmentNames
  {
  }

  lemma DistinctColumn(ns: seq<string>)
    requires ns == [
      "ShoppingCart", "ShoppingBag", "Store", "Gift", "Utensils", "Coffee", "Pizza", "Wine",
      "Car", "Bus", "Train", "Plane", "Home", "Lightbulb", "Wifi", "Smartphone",
      "Stethoscope", "Heart", "Dumbbell", "Tv", "Music", "Film", "Gamepad"]
    ensures NoDuplicates(ns)
  {
  }

  /** Icon names are distinct (they key the grid). */
  lemma IconNamesDistinct()
    ensures NoDuplicates(IconNames(IconOptions))
  {
    IconNamesColumn();
    DistinctColumn(IconNames(IconOptions));
  }

  /** The default icon is listed. */
  lemma DefaultIconListed()
    ensures DefaultIcon in IconNames(IconOptions)
  {
    IconNamesColumn();
  }

  /** The palette is 15 distinct colours. */
  lemma PaletteDistinct()
    ensures |ColorOptions| == 15 && NoDuplicates(ColorOptions)
  {
  }

  // ---- the icon grid --------------------------------------------------------

  function Section(o: IconOption): string
  {
    o.group
  }

  /** `groupedIcons`: the table grouped by section. Object entries with
      non-numeric keys come back in insertion order, so the grid shows the
      sections in the order the insertion-ordered grouping gives. */
  function GroupedIcons(): seq<Group<string, IconOption>>
  {
    GroupBy(IconOptions, Section)
  }

  /** One more section of the table adds one group. */
  lemma Extend(p: seq<IconOption>, gs: seq<Group<string, IconOption>>, t: seq<IconOption>, k: string)
    requires GroupBy(p, Section) == gs
    requires forall i :: 0 <= i < |gs| ==> gs[i].key != k
    requires t != [] && forall i :: 0 <= i < |t| ==> t[i].group == k
    ensures GroupBy(p + t, Section) == gs + [Group(k, t)]
  {
    InKeys(gs, k);
    GroupByAppendBlock(p, t, Section, k);
  }

  lemma FirstTwoSections()
    ensures GroupBy(ShoppingIcons + FoodIcons, Section) ==
      [Group(Shopping, ShoppingIcons), Group(Food, FoodIcons)]
  {
    assert [] + ShoppingIcons == ShoppingIcons;
    Extend([], [], ShoppingIcons, Shopping);
    Extend(ShoppingIcons, [Group(Shopping, ShoppingIcons)], FoodIcons, Food);
  }

  lemma FirstFourSections()
    ensures GroupBy(ShoppingIcons + FoodIcons + TransportIcons + HomeIcons, Section) ==
      [Group(Shopping, ShoppingIcons), Group(Food, FoodIcons), Group(Transport, TransportIcons),
       Group(HomeUtilities, HomeIcons)]
  {
    FirstTwoSections();
    var g2 := [Group(Shopping, ShoppingIcons), Group(Food, FoodIcons)];
    Extend(ShoppingIcons + FoodIcons, g2, TransportIcons, Transport);
    Extend(ShoppingIcons + FoodIcons + TransportIcons, g2 + [Group(Transport, TransportIcons)], HomeIcons, HomeUtilities);
  }

  /** The grid has six sections in table order, each holding its table
      entries in table order. */
  lemma GroupedIconsShape()
    ensures GroupedIcons() == [
      Group(Shopping, ShoppingIcons), Group(Food, FoodIcons), Group(Transport, TransportIcons),
      Group(HomeUtilities, HomeIcons), Group(Health, HealthIcons), Group(Entertainment, EntertainmentIcons)]
  {
    FirstFourSections();
    var p4 := ShoppingIcons + FoodIcons + TransportIcons + HomeIcons;
    var g4 := [Group(Shopping, ShoppingIcons), Group(Food, FoodIcons), Group(Transport, TransportIcons),
               Group(HomeUtilities, HomeIcons)];
    Extend(p4, g4, HealthIcons, Health);
    Extend(p4 + HealthIcons, g4 + [Group(Health, HealthIcons)], EntertainmentIcons, Entertainment);
  }

  /** The sections come in table order with sizes 4, 4, 4, 4, 3 and 4, and
      reading the grid section by section gives back the table. */
  lemma GroupedIconsOrder()
    ensures var gs := GroupedIcons();
      && Keys(gs) == [Shopping, Food, Transport, HomeUtilities, Health, Entertainment]
      && Flatten(gs) == IconOptions
      && |gs[0].items| == 4 && |gs[1].items| == 4 && |gs[2].items| == 4
      && |gs[3].items| == 4 && |gs[4].items| == 3 && |gs[5].items| == 4
  {
    GroupedIconsShape();
    SectionsFlatten();
  }

  lemma SectionsFlatten()
    ensures Flatten([
      Group(Shopping, ShoppingIcons), Group(Food, FoodIcons), Group(Transport, TransportIcons),
      Group(HomeUtilities, HomeIcons), Group(Health, HealthIcons), Group(Entertainment, EntertainmentIcons)])
      == IconOptions
  {
    var g1 := [Group(Shopping, ShoppingIcons)];
    var g2 := g1 + [Group(Food, FoodIcons)];
    var g3 := g2 + [Group(Transport, TransportIcons)];
    var g4 := g3 + [Group(HomeUtilities, HomeIcons)];
    var g5 := g4 + [Group(Health, HealthIcons)];
    FlattenSnoc([], Group(Shopping, ShoppingIcons));
    assert [] + g1 == g1 && [] + ShoppingIcons == ShoppingIcons;
    FlattenSnoc(g1, Group(Food, FoodIcons));
    FlattenSnoc(g2, Group(Transport, TransportIcons));
    FlattenSnoc(g3, Group(HomeUtilities, HomeIcons));
    FlattenSnoc(g4, Group(Health, HealthIcons));
    FlattenSnoc(g5, Group(Entertainment, EntertainmentIcons));
    assert g5 + [Group(Entertainment, EntertainmentIcons)] == [
      Group(Shopping, ShoppingIcons), Group(Food, FoodIcons), Group(Transport, TransportIcons),
      Group(HomeUtilities, HomeIcons), Group(Health, HealthIcons), Group(Entertainment, EntertainmentIcons)];
  }

  /** Every option shows exactly once, under the section its `group` names. */
  lemma GroupedIconsPartition()
    ensures var gs := GroupedIcons();
      && DistinctKeys(gs)
      && (forall i :: 0 <= i < |gs| ==> gs[i].items == WithKey(IconOptions, Section, gs[i].key))
      && (forall i :: 0 <= i < |gs| ==> forall o :: o in gs[i].items ==> o.group == gs[i].key)
      && (forall o :: o in IconOptions ==> exists i :: 0 <= i < |gs| && gs[i].key == o.group)
  {
    GroupByPartition(IconOptions, Section);
  }

  // ---- the form ----------------------------------------------------------------

  datatype CategoryForm = CategoryForm(name: string, icon: string, color: string, submitting: bool, error: string)

  /** The form on mount: empty name, the default icon and the first colour. */
  function Initial(): (f: CategoryForm)
    ensures f.icon in IconNames(IconOptions) && f.color in ColorOptions
  {
    DefaultIconListed();
    CategoryForm("", DefaultIcon, ColorOptions[0], false, "")
  }

  /** What a `catch` receives: an `Error` with its message, or any other value. */
  datatype Thrown = ErrorObject(message: string) | OtherValue

  /** The row inserted for the signed-in user `userId`. */
  datatype Insert = Insert(name: string, icon: string, color: string, userId: string)

  /** The form after the submission, the insert attempted (if any), and
      whether the parent was notified and asked to close. */
  datatype Outcome = Outcome(form: CategoryForm, request: Option<Insert>, notifyAdded: bool, close: bool)

  const NoUserMessage := "No authenticated user found"
  const FallbackMessage := "Failed to add category"

  /** The message `catch` shows for a thrown value. */
  function MessageOf(t: Thrown): string
  {
    if t.ErrorObject? then t.message else FallbackMessage
  }

  /** `handleSubmit`, given the signed-in user (if any) and the insert's
      error (if any; it only matters when an insert is made). */
  function HandleSubmit(f: CategoryForm, user: Option<string>, insertError: Option<Thrown>): (o: Outcome)
    ensures !o.form.submitting
    ensures o.request.Some? <==> user.Some?
    ensures o.notifyAdded <==> user.Some? && insertError.None?
  {
    var started := f.(error := "", submitting := true);
    if user.None? then
      Outcome(started.(error := MessageOf(ErrorObject(NoUserMessage)), submitting := false), None, false, false)
    else
      var request := Insert(f.name, f.icon, f.color, user.value);
      if insertError.None? then
        Outcome(CategoryForm("", DefaultIcon, ColorOptions[0], false, ""), Some(request), true, true)
      else
        Outcome(started.(error := MessageOf(insertError.value), submitting := false), Some(request), false, false)
  }

  /** Without a signed-in user nothing is inserted and the form keeps its
      fields and shows the no-user message. */
  lemma NoUserNoInsert(f: CategoryForm, insertError: Option<Thrown>)
    ensures var o := HandleSubmit(f, None, insertError);
      o.request == None && !o.close
      && o.form == f.(error := NoUserMessage, submitting := false)
  {
  }

  /** A successful insert carries the form's fields and the user's id, and
      puts the form back to its initial state. */
  lemma SuccessResets(f: CategoryForm, userId: string)
    ensures var o := HandleSubmit(f, Some(userId), None);
      o.request == Some(Insert(f.name, f.icon, f.color, userId)) && o.form == Initial() && o.close
  {
  }

  /** A failed insert keeps the fields for a retry and shows the error's
      message, or the fallback message for a non-`Error` value. */
  lemma FailureKeepsFields(f: CategoryForm, userId: string, t: Thrown)
    ensures var o := HandleSubmit(f, Some(userId), Some(t));
      && o.form.name == f.name && o.form.icon == f.icon && o.form.color == f.color
      && o.form.error == (if t.ErrorObject? then t.message else FallbackMessage)
      && !o.close && !o.notifyAdded
  {
  }
}

=== FILE: amounts.dfy ===
/** Amounts as the forms spell them. An amount is integer cents; the text
    field shows JavaScript's `Number.prototype.toString` of the amount in
    dollars (no trailing zeros after the point, no point for whole dollars)
    and submits what `parseFloat` reads back. */
module Amounts {

  import opened Seqs
  import opened Dates

  predicate AllDigits(s: string)
  {
    forall i :: 0 <= i < |s| ==> IsDigit(s[i])
  }

  /** Decimal digits of `n` without leading zeros. */
  function NatText(n: nat): (s: string)
    ensures s != [] && AllDigits(s)
    ensures |s| > 1 ==> s[0] != '0'
    decreases n
  {
    if n < 10 then [DigitChar(n)] else NatText(n / 10) + [DigitChar(n % 10)]
  }

  /** The value of a string of decimal digits (0 for the empty string). */
  function ParseNat(s: string): nat
    requires AllDigits(s)
    decreases |s|
  {
    if s == [] then 0 else 10 * ParseNat(s[..|s| - 1]) + DigitValue(s[|s| - 1])
  }

  lemma {:induction false} ParseNatText(n: nat)
    ensures ParseNat(NatText(n)) == n
    decreases n
  {
    if n >= 10 {
      var s := NatText(n);
      assert s[..|s| - 1] == NatText(n / 10);
      ParseNatText(n / 10);
    }
  }

  /** The part after the point of `c` hundredths: nothing for 0, one digit
      when the last is zero, two otherwise. */
  function Fraction(c: nat): (s: string)
    requires c < 100
    ensures s == [] <==> c == 0
    ensures s != [] ==> s[0] == '.' && 2 <= |s| <= 3 && AllDigits(s[1..]) && s[|s| - 1] != '0'
  {
    if c == 0 then ""
    else if c % 10 == 0 then "." + [DigitChar(c / 10)]
    else "." + [DigitChar(c / 10), DigitChar(c % 10)]
  }

  function Magnitude(cents: int): nat
  {
    if cents < 0 then -cents else cents
  }

  /** The spelling of a non-negative amount of `m` hundredths. */
  function UnsignedText(m: nat): (s: string)
    ensures s != [] && IsDigit(s[0])
  {
    NatText(m / 100) + Fraction(m % 100)
  }

  /** `amount.toString()` for an amount of `cents` hundredths. */
  function FormatCents(cents: int): (s: string)
    ensures s != []
    ensures s[0] == '-' <==> cents < 0
  {
    (if cents < 0 then "-" else "") + UnsignedText(Magnitude(cents))
  }

  /** Index of the first '.', or `|s|` when there is none. */
  function DotIndex(s: string): (k: nat)
    ensures k <= |s|
    ensures k < |s| ==> s[k] == '.'
    ensures forall i :: 0 <= i < k ==> s[i] != '.'
  {
    if s == [] then 0 else if s[0] == '.' then 0 else 1 + DotIndex(s[1..])
  }

  /** Digits, optionally followed by a point and one or two digits. */
  function ParseUnsigned(s: string): (r: Option<nat>)
  {
    var k := DotIndex(s);
    var whole := s[..k];
    if whole == [] || !AllDigits(whole) then None
    else if k == |s| then Some(100 * ParseNat(whole))
    else
      var frac := s[k + 1..];
      if 1 <= |frac| <= 2 && AllDigits(frac) then
        Some(100 * ParseNat(whole) + (if |frac| == 1 then 10 * DigitValue(frac[0]) else ParseNat(frac)))
      else None
  }

  /** `parseFloat` restricted to amounts in cents: an optional minus sign,
      then `ParseUnsigned`. `None` stands for `NaN`. */
  function ParseCents(s: string): (r: Option<int>)
  {
    if s != [] && s[0] == '-' then
      (var u := ParseUnsigned(s[1..]); if u.Some? then Some(-(u.value as int)) else None)
    else
      (var u := ParseUnsigned(s); if u.Some? then Some(u.value as int) else None)
  }

  lemma DotAfterDigits(a: string, b: string)
    requires AllDigits(a) && (b == [] || b[0] == '.')
    ensures DotIndex(a + b) == |a|
  {
    assert forall i :: 0 <= i < |a| ==> (a + b)[i] == a[i];
    assert b != [] ==> (a + b)[|a|] == b[0];
  }

  lemma UnsignedRoundTrip(m: nat)
    ensures ParseUnsigned(UnsignedText(m)) == Some(m)
  {
    var w := NatText(m / 100);
    var f := Fraction(m % 100);
    var s := w + f;
    DotAfterDigits(w, f);
    assert s[..|w|] == w;
    ParseNatText(m / 100);
    if f != [] {
      assert s[|w| + 1..] == f[1..];
      FractionValue(m % 100);
    } else {
      assert s == w;
    }
  }

  /** The digits after the point read back as the hundredths they spell. */
  lemma FractionValue(c: nat)
    requires 0 < c < 100
    ensures var t := Fraction(c)[1..];
      (|t| == 1 && 10 * DigitValue(t[0]) == c) || (|t| == 2 && ParseNat(t) == c)
  {
    var t := Fraction(c)[1..];
    if c % 10 == 0 {
      assert t == [DigitChar(c / 10)];
    } else {
      assert t == [DigitChar(c / 10), DigitChar(c % 10)];
      TwoDigits(c / 10, c % 10);
    }
  }

  lemma TwoDigits(a: nat, b: nat)
    requires a <= 9 && b <= 9
    ensures ParseNat([DigitChar(a), DigitChar(b)]) == 10 * a + b
  {
    var t := [DigitChar(a), DigitChar(b)];
    assert t[..1] == [DigitChar(a)];
    assert t[..1][..0] == [];
    assert ParseNat(t[..1]) == a;
    assert DigitValue(t[1]) == b;
    assert ParseNat(t) == 10 * ParseNat(t[..1]) + DigitValue(t[1]);
  }

  lemma SignedParse(s: string, u: nat)
    requires ParseUnsigned(s) == Some(u) && s != [] && s[0] != '-'
    ensures ParseCents(s) == Some(u)
    ensures ParseCents("-" + s) == Some(-(u as int))
  {
    assert ("-" + s)[1..] == s;
  }

  /** Reading back a spelled amount gives the amount: opening the edit form
      and saving without touching the field keeps the amount. */
  lemma CentsRoundTrip(cents: int)
    ensures ParseCents(FormatCents(cents)) == Some(cents)
  {
    var m := Magnitude(cents);
    UnsignedRoundTrip(m);
    SignedParse(UnsignedText(m), m);
    if cents < 0 {
      assert FormatCents(cents) == "-" + UnsignedText(m);
    } else {
      assert FormatCents(cents) == UnsignedText(m);
    }
  }

  /** 12.50 dollars is shown as "12.5", 12 dollars as "12". */
  lemma FormatExamples()
    ensures FormatCents(1250) == "12.5"
    ensures FormatCents(1200) == "12"
    ensures FormatCents(-5) == "-0.05"
  {
    assert NatText(12) == NatText(1) + [DigitChar(2)];
  }

  /** "12.50" is read as the same amount as "12.5". */
  lemma ParseExample()
    ensures ParseCents("12.50") == Some(1250)
  {
    assert DotIndex("12.50") == 2;
    assert "12.50"[..2] == "12" && "12.50"[3..] == "50";
    assert "12"[..1] == "1" && "50"[..1] == "5";
    assert "1"[..0] == [] && "5"[..0] == [];
    assert ParseNat("12") == 12 && ParseNat("50") == 50;
    assert AllDigits("12") && AllDigits("50");
  }
}

=== FILE: countryselector.dfy ===
/** The dial-code picker: the country table, the search filter over it, the
    lookup of the selected country by dial code, and the picker's toggle and
    selection. */
module CountrySelector {

  import opened Seqs
  import opened Text

  /** A table entry; the flag glyph is the one of `code`, so it is not kept. */
  datatype Country = Country(name: string, code: string, dialCode: string)

  const Countries: seq<Country> := [
    Country("United States", "US", "+1"), Country("United Kingdom", "GB", "+44"),
    Country("India", "IN", "+91"), Country("Afghanistan", "AF", "+93"),
    Country("Albania", "AL", "+355"), Country("Algeria", "DZ", "+213"),
    Country("Argentina", "AR", "+54"), Country("Australia", "AU", "+61"),
    Country("Austria", "AT", "+43"), Country("Bangladesh", "BD", "+880"),
    Country("Belgium", "BE", "+32"), Country("Brazil", "BR", "+55"),
    Country("Canada", "CA", "+1"), Country("China", "CN", "+86"),
    Country("France", "FR", "+33"), Country("Germany", "DE", "+49"),
    Country("Italy", "IT", "+39"), Country("Japan", "JP", "+81"),
    Country("Mexico", "MX", "+52"), Country("Netherlands", "NL", "+31"),
    Country("New Zealand", "NZ", "+64"), Country("Pakistan", "PK", "+92"),
    Country("Russia", "RU", "+7"), Country("Saudi Arabia", "SA", "+966"),
    Country("Singapore", "SG", "+65"), Country("South Africa", "ZA", "+27"),
    Country("South Korea", "KR", "+82"), Country("Spain", "ES", "+34"),
    Country("Sweden", "SE", "+46"), Country("Switzerland", "CH", "+41")
  ]

  // ---- the filter ------------------------------------------------------------

  /** Name and code are matched ignoring case, the dial code exactly. */
  predicate Matches(c: Country, search: string)
  {
    Contains(ToLower(c.name), ToLower(search))
    || Contains(c.dialCode, search)
    || Contains(ToLower(c.code), ToLower(search))
  }

  function MatchesFn(search: string): Country -> bool
  {
    (c: Country) => Matches(c, search)
  }

  /** `filteredCountries` over a table `cs`. */
  function Filtered(cs: seq<Country>, search: string): (r: seq<Country>)
    ensures IsSubsequence(r, cs)
    ensures forall c :: c in r <==> c in cs && Matches(c, search)
  {
    FilterIsSubsequence(cs, MatchesFn(search));
    Filter(cs, MatchesFn(search))
  }

  /** An empty search lists the whole table. */
  lemma EmptySearchListsAll(cs: seq<Country>)
    ensures Filtered(cs, "") == cs
  {
    forall i | 0 <= i < |cs| ensures MatchesFn("")(cs[i]) {
      ContainsEmpty(ToLower(cs[i].name));
    }
    FilterAll(cs, MatchesFn(""));
  }

  /** Every country is found by its name and by its code in any case, and by
      its dial code. */
  lemma FoundByOwnFields(cs: seq<Country>, c: Country)
    requires c in cs
    ensures c in Filtered(cs, c.name) && c in Filtered(cs, ToLower(c.name))
    ensures c in Filtered(cs, c.code) && c in Filtered(cs, c.dialCode)
  {
    ContainsSelf(ToLower(c.name));
    ToLowerIdempotent(c.name);
    ContainsSelf(ToLower(c.code));
    ContainsSelf(c.dialCode);
  }

  /** "No countries found" shows exactly when the filtered list is empty,
      which is when no country matches. */
  predicate ShowsNoResults(cs: seq<Country>, search: string)
  {
    |Filtered(cs, search)| == 0
  }

  lemma NoResultsIffNoMatch(cs: seq<Country>, search: string)
    ensures ShowsNoResults(cs, search) <==> forall i :: 0 <= i < |cs| ==> !Matches(cs[i], search)
  {
    var r := Filtered(cs, search);
    if !ShowsNoResults(cs, search) {
      assert r[0] in r;
      var i :| 0 <= i < |cs| && cs[i] == r[0];
    } else {
      forall i | 0 <= i < |cs| ensures !Matches(cs[i], search) {
        assert cs[i] in cs;
      }
    }
  }

  // ---- the selected country ----------------------------------------------------

  function DialIs(value: string): Country -> bool
  {
    (c: Country) => c.dialCode == value
  }

  /** `selectedCountry`: the first table entry with the given dial code. */
  function Selected(cs: seq<Country>, value: string): Option<Country>
  {
    Find(cs, DialIs(value))
  }

  /** The lookup finds an entry with the value as its dial code whenever one
      exists, and no earlier entry has it. */
  lemma SelectedIsFirstMatch(cs: seq<Country>, value: string)
    ensures Selected(cs, value).None? <==> forall i :: 0 <= i < |cs| ==> cs[i].dialCode != value
    ensures Selected(cs, value).Some? ==>
      exists i :: 0 <= i < |cs| && cs[i] == Selected(cs, value).value && cs[i].dialCode == value
                  && forall j :: 0 <= j < i ==> cs[j].dialCode != value
  {
    var r := Selected(cs, value);
    assert forall i :: 0 <= i < |cs| ==> (DialIs(value)(cs[i]) <==> cs[i].dialCode == value);
  }

  /** The picker's state. */
  datatype Picker = Picker(isOpen: bool, search: string)

  /** The toggle button: flips the list unless the picker is disabled. */
  function Toggle(p: Picker, disabled: bool): Picker
  {
    if disabled then p else p.(isOpen := !p.isOpen)
  }

  /** A click outside the picker closes the list and keeps the search. */
  function ClickOutside(p: Picker): (q: Picker)
    ensures !q.isOpen && q.search == p.search
  {
    p.(isOpen := false)
  }

  /** Typing in the search box changes the search only. */
  function TypeSearch(p: Picker, value: string): (q: Picker)
    ensures q.search == value && q.isOpen == p.isOpen
  {
    p.(search := value)
  }

  /** The entries on screen: none while closed, the filtered table while open. */
  function Listed(p: Picker, cs: seq<Country>): seq<Country>
  {
    if p.isOpen then Filtered(cs, p.search) else []
  }

  /** Typing into the open list shows the matching entries; a click outside
      hides them, and since the search is kept, reopening with the toggle
      shows the same matches again (only a choice clears the search). */
  lemma SearchSurvivesClickOutside(p: Picker, cs: seq<Country>, value: string)
    requires p.isOpen
    ensures Listed(TypeSearch(p, value), cs) == Filtered(cs, value)
    ensures Listed(ClickOutside(TypeSearch(p, value)), cs) == []
    ensures Listed(Toggle(ClickOutside(TypeSearch(p, value)), false), cs) == Filtered(cs, value)
    ensures Listed(Toggle(ClickOutside(TypeSearch(p, value)), true), cs) == []
  {
  }

  /** Choosing a listed country: the new value and the picker afterwards. */
  datatype Choice = Choice(value: string, picker: Picker)

  function Choose(p: Picker, c: Country): (r: Choice)
    ensures r.value == c.dialCode && !r.picker.isOpen && r.picker.search == ""
  {
    Choice(c.dialCode, Picker(false, ""))
  }

  /** A disabled picker never opens. */
  lemma DisabledStaysClosed(p: Picker)
    requires !p.isOpen
    ensures !Toggle(p, true).isOpen
    ensures Toggle(Toggle(p, false), false) == p
  {
  }

  /** After choosing, the picker shows an entry with the chosen dial code:
      the chosen country itself unless an earlier entry shares its code. */
  lemma ChoiceShowsDialCode(cs: seq<Country>, p: Picker, c: Country)
    requires c in cs
    ensures var shown := Selected(cs, Choose(p, c).value);
      shown.Some? && shown.value.dialCode == c.dialCode
    ensures cs != [] && cs[0] == c ==> Selected(cs, Choose(p, c).value) == Some(c)
  {
    var i :| 0 <= i < |cs| && cs[i] == c;
    assert DialIs(c.dialCode)(cs[i]);
  }

  /** The United States and Canada share "+1": choosing Canada stores "+1",
      and the picker then shows the United States entry and its flag. */
  lemma CanadaShowsUnitedStates(p: Picker)
    ensures Countries[12].name == "Canada"
    ensures Selected(Countries, Choose(p, Countries[12]).value) == Some(Country("United States", "US", "+1"))
  {
    var us := Countries[0];
    assert Choose(p, Countries[12]).value == "+1";
    assert DialIs("+1")(us);
    assert Find(Countries, DialIs("+1")) == Some(us);
  }

  /** Choosing then reopening starts from an empty search, so the list shows
      the whole table again. */
  lemma ReopenListsAll(p: Picker, c: Country)
    ensures var q := Toggle(Choose(p, c).picker, false);
      q.isOpen && Filtered(Countries, q.search) == Countries
  {
    EmptySearchListsAll(Countries);
  }

  /** Country codes, which key the list, are distinct. */
  lemma CodesDistinct()
    ensures forall i, j :: 0 <= i < j < |Countries| ==> Countries[i].code != Countries[j].code
  {
    CodesDistinctFirst();
    CodesDistinctMiddle();
    CodesDistinctLast();
  }

  lemma CodesDistinctFirst()
    ensures forall i, j :: 0 <= i < 10 && i < j < |Countries| ==> Countries[i].code != Countries[j].code
  {
  }

  lemma CodesDistinctMiddle()
    ensures forall i, j :: 10 <= i < 20 && i < j < |Countries| ==> Countries[i].code != Countries[j].code
  {
  }

  lemma CodesDistinctLast()
    ensures forall i, j :: 20 <= i < j < |Countries| ==> Countries[i].code != Countries[j].code
  {
  }
}

=== FILE: dashboard.dfy ===
/** The dashboard's client-side aggregation: the five-week chart, the
    previous-calendar-month total, the grand total with its "than last
    month" difference, the recent list and the per-category totals. */
module Dashboard {

  import opened Seqs
  import opened Dates
  import opened Domain
  import opened Ordering

  // ---- the weekly chart ------------------------------------------------

  /** A number the weekly record can hold: an integer, or NaN once
      `undefined + amount` has been stored under a key that was never set. */
  datatype Tally = Num(n: int) | NaN

  function Add(t: Tally, amount: int): Tally
  {
    if t.NaN? then NaN else Num(t.n + amount)
  }

  /** One entry of the weekly record: the key `W<week>` and its amount.
      `W<n>` spells distinct integers differently, so the integer is the key. */
  datatype Bucket = Bucket(week: int, amount: Tally)

  /** Whole weeks from `d` back to `today`, rounded down; negative for a
      date after today. */
  function WeekDiff(today: Day, d: Day): (w: int)
    ensures 7 * w <= DayNumber(today) - DayNumber(d) < 7 * w + 7
    ensures w < 0 <==> DayNumber(today) < DayNumber(d)
  {
    (DayNumber(today) - DayNumber(d)) / 7
  }

  /** The record after the initialising loop: `W1` … `W5` hold 0, in that
      insertion order. */
  const Initial: seq<Bucket> := [Bucket(1, Num(0)), Bucket(2, Num(0)), Bucket(3, Num(0)), Bucket(4, Num(0)), Bucket(5, Num(0))]

  /** `weeks[W<key>] += amount`: the first bucket with that key is updated in
      place; a key never set reads as `undefined`, so it is appended with NaN. */
  function AddAt(ws: seq<Bucket>, key: int, amount: int): seq<Bucket>
  {
    if ws == [] then [Bucket(key, NaN)]
    else if ws[0].week == key then [Bucket(key, Add(ws[0].amount, amount))] + ws[1..]
    else [ws[0]] + AddAt(ws[1..], key, amount)
  }

  /** Position of the first bucket with key `key`, or `|ws|` when there is none. */
  function IndexOfWeek(ws: seq<Bucket>, key: int): (n: nat)
    ensures n <= |ws|
    ensures forall i :: 0 <= i < n ==> ws[i].week != key
    ensures n < |ws| ==> ws[n].week == key
  {
    if ws == [] || ws[0].week == key then 0 else 1 + IndexOfWeek(ws[1..], key)
  }

  /** An existing key: exactly its first bucket changes, by `Add`. */
  lemma {:induction false} AddAtExisting(ws: seq<Bucket>, key: int, amount: int)
    requires IndexOfWeek(ws, key) < |ws|
    ensures var j := IndexOfWeek(ws, key);
      AddAt(ws, key, amount) == ws[j := Bucket(key, Add(ws[j].amount, amount))]
  {
    var j := IndexOfWeek(ws, key);
    if ws[0].week != key {
      AddAtExisting(ws[1..], key, amount);
      assert j == 1 + IndexOfWeek(ws[1..], key);
      assert ws[j := Bucket(key, Add(ws[j].amount, amount))]
          == [ws[0]] + ws[1..][j - 1 := Bucket(key, Add(ws[j].amount, amount))];
    } else {
      assert j == 0;
    }
  }

  /** A missing key: one bucket holding NaN is appended and nothing else changes. */
  lemma {:induction false} AddAtFresh(ws: seq<Bucket>, key: int, amount: int)
    requires IndexOfWeek(ws, key) == |ws|
    ensures AddAt(ws, key, amount) == ws + [Bucket(key, NaN)]
  {
    if ws != [] {
      AddAtFresh(ws[1..], key, amount);
      assert ws == [ws[0]] + ws[1..];
    }
  }

  /** The body of the `forEach`: only a week difference below 5 is recorded. */
  function Step(ws: seq<Bucket>, today: Day, e: Expense): seq<Bucket>
  {
    var w := WeekDiff(today, e.date);
    if w < 5 then AddAt(ws, w + 1, e.amount) else ws
  }

  function Accumulate(ws: seq<Bucket>, today: Day, es: seq<Expense>): seq<Bucket>
    decreases |es|
  {
    if es == [] then ws else Accumulate(Step(ws, today, es[0]), today, es[1..])
  }

  /** `calculateWeeklyExpenses`: the record's entries in insertion order,
      reversed (rounding is not modelled: amounts are integer cents). */
  function WeeklyExpenses(es: seq<Expense>, today: Day): seq<Bucket>
  {
    Reverse(Accumulate(Initial, today, es))
  }

  // The reference definition: what each bucket should hold.

  function InWeek(today: Day, k: int): Expense -> bool
  {
    (e: Expense) => WeekDiff(today, e.date) == k
  }

  /** Sum of the expenses exactly `k` whole weeks old. */
  function WeekTotal(es: seq<Expense>, today: Day, k: int): int
  {
    Sum(Filter(es, InWeek(today, k)))
  }

  /** No expense is dated after `today`. */
  predicate NoneAfter(es: seq<Expense>, today: Day)
  {
    forall i :: 0 <= i < |es| ==> DayNumber(es[i].date) <= DayNumber(today)
  }

  /** Buckets `W1` … `W5` holding `c[0]` … `c[4]`. */
  function Table(c: seq<int>): seq<Bucket>
    requires |c| == 5
  {
    [Bucket(1, Num(c[0])), Bucket(2, Num(c[1])), Bucket(3, Num(c[2])), Bucket(4, Num(c[3])), Bucket(5, Num(c[4]))]
  }

  /** `c` plus the week totals of `es`. */
  function Shifted(c: seq<int>, es: seq<Expense>, today: Day): (d: seq<int>)
    requires |c| == 5
    ensures |d| == 5
  {
    seq(5, k requires 0 <= k < 5 => c[k] + WeekTotal(es, today, k))
  }

  lemma AddAtTable(c: seq<int>, w: int, amount: int)
    requires |c| == 5 && 0 <= w < 5
    ensures AddAt(Table(c), w + 1, amount) == Table(c[w := c[w] + amount])
  {
    var t := Table(c);
    assert forall i :: 0 <= i < 5 ==> t[i].week == i + 1;
    assert t[w].week == w + 1;
    assert IndexOfWeek(t, w + 1) == w;
    AddAtExisting(Table(c), w + 1, amount);
  }

  lemma WeekTotalCons(e: Expense, es: seq<Expense>, today: Day, k: int)
    ensures WeekTotal([e] + es, today, k) == (if WeekDiff(today, e.date) == k then e.amount else 0) + WeekTotal(es, today, k)
  {
    assert ([e] + es)[1..] == es;
    SumAppend(if WeekDiff(today, e.date) == k then [e] else [], Filter(es, InWeek(today, k)));
  }

  /** Moving one expense out of the input and into the counts. */
  function Counted(c: seq<int>, today: Day, e: Expense): (c': seq<int>)
    requires |c| == 5
    ensures |c'| == 5
  {
    var w := WeekDiff(today, e.date);
    if 0 <= w < 5 then c[w := c[w] + e.amount] else c
  }

  lemma ShiftedCons(c: seq<int>, today: Day, e: Expense, rest: seq<Expense>)
    requires |c| == 5
    ensures Shifted(Counted(c, today, e), rest, today) == Shifted(c, [e] + rest, today)
  {
    var a := Shifted(Counted(c, today, e), rest, today);
    var b := Shifted(c, [e] + rest, today);
    forall k | 0 <= k < 5
      ensures a[k] == b[k]
    {
      ShiftedConsAt(c, today, e, rest, k);
    }
  }

  lemma ShiftedConsAt(c: seq<int>, today: Day, e: Expense, rest: seq<Expense>, k: int)
    requires |c| == 5 && 0 <= k < 5
    ensures Shifted(Counted(c, today, e), rest, today)[k] == Shifted(c, [e] + rest, today)[k]
  {
    var w := WeekDiff(today, e.date);
    var c' := Counted(c, today, e);
    assert c'[k] == c[k] + (if w == k then e.amount else 0);
    WeekTotalCons(e, rest, today, k);
  }

  lemma StepTable(c: seq<int>, today: Day, e: Expense)
    requires |c| == 5 && DayNumber(e.date) <= DayNumber(today)
    ensures Step(Table(c), today, e) == Table(Counted(c, today, e))
  {
    var w := WeekDiff(today, e.date);
    if w < 5 {
      AddAtTable(c, w, e.amount);
    }
  }

  lemma {:induction false} AccumulateTable(c: seq<int>, today: Day, es: seq<Expense>)
    requires |c| == 5 && NoneAfter(es, today)
    ensures Accumulate(Table(c), today, es) == Table(Shifted(c, es, today))
    decreases |es|
  {
    if es == [] {
    } else {
      var e := es[0];
      assert es == [e] + es[1..];
      StepTable(c, today, e);
      AccumulateTable(Counted(c, today, e), today, es[1..]);
      ShiftedCons(c, today, e, es[1..]);
    }
  }

  /** With no expense after today the chart has exactly the five bars W5,
      W4, W3, W2, W1, oldest first, and bar `W(k+1)` sums exactly the
      expenses `k` whole weeks old (all 0 for no expenses). */
  lemma WeeklyNoFuture(es: seq<Expense>, today: Day)
    requires NoneAfter(es, today)
    ensures WeeklyExpenses(es, today) ==
      [Bucket(5, Num(WeekTotal(es, today, 4))), Bucket(4, Num(WeekTotal(es, today, 3))),
       Bucket(3, Num(WeekTotal(es, today, 2))), Bucket(2, Num(WeekTotal(es, today, 1))),
       Bucket(1, Num(WeekTotal(es, today, 0)))]
  {
    ReverseTable(Shifted([0, 0, 0, 0, 0], es, today));
    AccumulateInitial(es, today);
  }

  lemma AccumulateInitial(es: seq<Expense>, today: Day)
    requires NoneAfter(es, today)
    ensures Accumulate(Initial, today, es) == Table(Shifted([0, 0, 0, 0, 0], es, today))
  {
    assert Initial == Table([0, 0, 0, 0, 0]);
    AccumulateTable([0, 0, 0, 0, 0], today, es);
  }

  lemma ReverseTable(c: seq<int>)
    requires |c| == 5
    ensures Reverse(Table(c)) == [Bucket(5, Num(c[4])), Bucket(4, Num(c[3])), Bucket(3, Num(c[2])), Bucket(2, Num(c[1])), Bucket(1, Num(c[0]))]
  {
    var t := Table(c);
    var r := Reverse(t);
    assert r[0] == t[4] && r[1] == t[3] && r[2] == t[2] && r[3] == t[1] && r[4] == t[0];
  }

  lemma {:induction false} AccumulateAppend(ws: seq<Bucket>, today: Day, a: seq<Expense>, b: seq<Expense>)
    ensures Accumulate(ws, today, a + b) == Accumulate(Accumulate(ws, today, a), today, b)
    decreases |a|
  {
    if a == [] {
      assert a + b == b;
    } else {
      assert (a + b)[0] == a[0] && (a + b)[1..] == a[1..] + b;
      AccumulateAppend(Step(ws, today, a[0]), today, a[1..], b);
    }
  }

  /** An expense five or more weeks old changes nothing, wherever it sits
      in the input: old expenses are dropped, never clipped into W5. */
  lemma OldExpenseIgnored(a: seq<Expense>, e: Expense, b: seq<Expense>, today: Day)
    requires WeekDiff(today, e.date) >= 5
    ensures WeeklyExpenses(a + [e] + b, today) == WeeklyExpenses(a + b, today)
  {
    AccumulateAppend(Initial, today, a + [e], b);
    AccumulateAppend(Initial, today, a, [e]);
    AccumulateAppend(Initial, today, a, b);
  }

  /** Every bucket with a week of 0 or less holds NaN. */
  predicate FutureIsNaN(ws: seq<Bucket>)
  {
    forall i :: 0 <= i < |ws| && ws[i].week <= 0 ==> ws[i].amount == NaN
  }

  /** Adding keeps every existing key in place, makes `key` present, and
      keeps the buckets of week 0 or less at NaN. */
  lemma AddAtKeeps(ws: seq<Bucket>, key: int, amount: int)
    requires FutureIsNaN(ws)
    ensures var r := AddAt(ws, key, amount);
      && |ws| <= |r|
      && (forall i :: 0 <= i < |ws| ==> r[i].week == ws[i].week)
      && FutureIsNaN(r)
      && IndexOfWeek(r, key) < |r|
  {
    var j := IndexOfWeek(ws, key);
    if j < |ws| {
      AddAtExisting(ws, key, amount);
    } else {
      AddAtFresh(ws, key, amount);
      var r := ws + [Bucket(key, NaN)];
      assert r[|ws|].week == key;
    }
  }

  lemma {:induction false} AccumulateKeeps(ws: seq<Bucket>, today: Day, es: seq<Expense>)
    requires FutureIsNaN(ws)
    ensures var r := Accumulate(ws, today, es);
      && |ws| <= |r|
      && (forall i :: 0 <= i < |ws| ==> r[i].week == ws[i].week)
      && FutureIsNaN(r)
    decreases |es|
  {
    if es != [] {
      var w := WeekDiff(today, es[0].date);
      if w < 5 {
        AddAtKeeps(ws, w + 1, es[0].amount);
      }
      AccumulateKeeps(Step(ws, today, es[0]), today, es[1..]);
    }
  }

  /** Processing `es` is processing the part before position `m`, then
      `es[m]`, then the rest. */
  lemma AccumulateAt(ws: seq<Bucket>, today: Day, es: seq<Expense>, m: int)
    requires 0 <= m < |es|
    ensures Accumulate(ws, today, es) ==
      Accumulate(Step(Accumulate(ws, today, es[..m]), today, es[m]), today, es[m + 1..])
  {
    assert es == es[..m] + ([es[m]] + es[m + 1..]);
    AccumulateAppend(ws, today, es[..m], [es[m]] + es[m + 1..]);
    assert ([es[m]] + es[m + 1..])[1..] == es[m + 1..];
  }

  lemma FutureBucket(es: seq<Expense>, today: Day, m: int)
    requires 0 <= m < |es| && DayNumber(today) < DayNumber(es[m].date)
    ensures var r := Accumulate(Initial, today, es);
      exists p :: 5 <= p < |r| && r[p].week <= 0 && r[p].amount == NaN
  {
    var before := Accumulate(Initial, today, es[..m]);
    AccumulateKeeps(Initial, today, es[..m]);
    var w := WeekDiff(today, es[m].date);
    var after := AddAt(before, w + 1, es[m].amount);
    AddAtKeeps(before, w + 1, es[m].amount);
    var p := IndexOfWeek(after, w + 1);
    AccumulateKeeps(after, today, es[m + 1..]);
    var r := Accumulate(after, today, es[m + 1..]);
    AccumulateAt(Initial, today, es, m);
    assert r[p].week <= 0 && r[p].amount == NaN;
    assert p >= 5;
  }

  /** A future-dated expense passes the `< 5` test and is stored under a
      key outside `W1` … `W5`: the chart then has more than five bars, one of
      them with a week of 0 or less holding NaN. */
  lemma WeeklyFutureNaN(es: seq<Expense>, today: Day, m: int)
    requires 0 <= m < |es| && DayNumber(today) < DayNumber(es[m].date)
    ensures |WeeklyExpenses(es, today)| > 5
    ensures exists b :: b in WeeklyExpenses(es, today) && b.week <= 0 && b.amount == NaN
  {
    FutureBucket(es, today, m);
    var r := Accumulate(Initial, today, es);
    var p :| 5 <= p < |r| && r[p].week <= 0 && r[p].amount == NaN;
    var rev := WeeklyExpenses(es, today);
    assert rev[|r| - 1 - p] == r[p];
  }

  /** Today 2024-03-20 and one expense dated 2024-03-21: the chart gains a
      leading `W0` bar holding NaN. */
  lemma WeeklyFutureExample()
    ensures var e := Expense("e", "u", "c", 1000, None, Date(2024, 3, 21), 0, None);
      WeeklyExpenses([e], Date(2024, 3, 20)) ==
        [Bucket(0, NaN), Bucket(5, Num(0)), Bucket(4, Num(0)), Bucket(3, Num(0)), Bucket(2, Num(0)), Bucket(1, Num(0))]
  {
    var e := Expense("e", "u", "c", 1000, None, Date(2024, 3, 21), 0, None);
    var today: Day := Date(2024, 3, 20);
    assert DayNumber(e.date) == DayNumber(today) + 1;
    assert WeekDiff(today, e.date) == -1;
    assert Accumulate(Initial, today, [e]) == Accumulate(AddAt(Initial, 0, 1000), today, []);
  }

  /** Sum of the bars; NaN absorbs. */
  function ChartTotal(bs: seq<Bucket>): Tally
  {
    if bs == [] then Num(0)
    else
      var rest := ChartTotal(bs[1..]);
      if rest.NaN? then NaN else Add(bs[0].amount, rest.n)
  }

  function UpTo(today: Day, n: int): Expense -> bool
  {
    (e: Expense) => 0 <= WeekDiff(today, e.date) < n
  }

  lemma WindowSplit(es: seq<Expense>, today: Day, n: int)
    requires 1 <= n
    ensures Sum(Filter(es, UpTo(today, n))) == Sum(Filter(es, UpTo(today, n - 1))) + WeekTotal(es, today, n - 1)
  {
    SumFilterDisjoint(es, UpTo(today, n), UpTo(today, n - 1), InWeek(today, n - 1));
  }

  /** Five numeric bars add up to the sum of their amounts. */
  lemma ChartTotalFive(a: int, b: int, c: int, d: int, e: int)
    ensures ChartTotal([Bucket(5, Num(a)), Bucket(4, Num(b)), Bucket(3, Num(c)), Bucket(2, Num(d)), Bucket(1, Num(e))])
            == Num(a + b + c + d + e)
  {
    var bs := [Bucket(5, Num(a)), Bucket(4, Num(b)), Bucket(3, Num(c)), Bucket(2, Num(d)), Bucket(1, Num(e))];
    assert ChartTotal(bs[4..]) == Num(e);
    assert bs[3..][1..] == bs[4..];
    assert ChartTotal(bs[3..]) == Num(d + e);
    assert bs[2..][1..] == bs[3..];
    assert ChartTotal(bs[2..]) == Num(c + d + e);
    assert bs[1..][1..] == bs[2..];
    assert ChartTotal(bs[1..]) == Num(b + c + d + e);
  }

  /** The five week totals add up to the sum of the expenses less than five
      weeks old and not after today. */
  lemma WindowTotal(es: seq<Expense>, today: Day)
    ensures WeekTotal(es, today, 0) + WeekTotal(es, today, 1) + WeekTotal(es, today, 2)
            + WeekTotal(es, today, 3) + WeekTotal(es, today, 4) == Sum(Filter(es, UpTo(today, 5)))
  {
    WindowUpTo(es, today, 5);
    assert WeeksTotal(es, today, 1) == WeekTotal(es, today, 0);
    assert WeeksTotal(es, today, 2) == WeeksTotal(es, today, 1) + WeekTotal(es, today, 1);
    assert WeeksTotal(es, today, 3) == WeeksTotal(es, today, 2) + WeekTotal(es, today, 2);
    assert WeeksTotal(es, today, 4) == WeeksTotal(es, today, 3) + WeekTotal(es, today, 3);
    assert WeeksTotal(es, today, 5) == WeeksTotal(es, today, 4) + WeekTotal(es, today, 4);
  }

  /** Sum of the week totals for weeks `0` … `n - 1`. */
  function WeeksTotal(es: seq<Expense>, today: Day, n: nat): int
  {
    if n == 0 then 0 else WeeksTotal(es, today, n - 1) + WeekTotal(es, today, n - 1)
  }

  lemma {:induction false} WindowUpTo(es: seq<Expense>, today: Day, n: nat)
    ensures Sum(Filter(es, UpTo(today, n))) == WeeksTotal(es, today, n)
  {
    if n == 0 {
      FilterNone(es, UpTo(today, 0));
    } else {
      WindowUpTo(es, today, n - 1);
      WindowSplit(es, today, n);
    }
  }

  /** With non-negative amounts and none after today, the bars add up to at
      most the grand total, and to exactly the grand total when every
      expense is less than five weeks old. */
  lemma WeeklyBounded(es: seq<Expense>, today: Day)
    requires NoneAfter(es, today) && NonNegative(es)
    ensures ChartTotal(WeeklyExpenses(es, today)).Num?
    ensures 0 <= ChartTotal(WeeklyExpenses(es, today)).n <= Sum(es)
    ensures (forall i :: 0 <= i < |es| ==> WeekDiff(today, es[i].date) < 5) ==>
              ChartTotal(WeeklyExpenses(es, today)).n == Sum(es)
  {
    WeeklyNoFuture(es, today);
    ChartTotalFive(WeekTotal(es, today, 4), WeekTotal(es, today, 3), WeekTotal(es, today, 2),
                   WeekTotal(es, today, 1), WeekTotal(es, today, 0));
    WindowTotal(es, today);
    SumFilterBound(es, UpTo(today, 5));
  }

  // ---- last month --------------------------------------------------------

  /** `new Date(y, m - 1, 1)`: the first of the previous month. */
  function LastMonthStart(today: Day): int
  {
    DayNumber(FirstOfMonth(PreviousMonth(today.year, today.month)))
  }

  /** `new Date(y, m, 0)`: day zero of the current month. */
  function LastMonthEnd(today: Day): int
  {
    DayNumber(FirstOfMonth(YearMonth(today.year, today.month))) - 1
  }

  function InLastMonth(today: Day): Expense -> bool
  {
    (e: Expense) => LastMonthStart(today) <= DayNumber(e.date) <= LastMonthEnd(today)
  }

  /** `calculateLastMonthTotal`. */
  function LastMonthTotal(es: seq<Expense>, today: Day): int
  {
    Sum(Filter(es, InLastMonth(today)))
  }

  /** The calendar-month reference definition. */
  function InMonth(ym: YearMonth): Expense -> bool
  {
    (e: Expense) => e.date.year == ym.year && e.date.month == ym.month
  }

  /** The inclusive bounds select exactly the previous calendar month;
      January rolls back to December of the year before. */
  lemma InLastMonthIsCalendarMonth(today: Day, e: Expense)
    ensures InLastMonth(today)(e) <==> InMonth(PreviousMonth(today.year, today.month))(e)
  {
    var pm := PreviousMonth(today.year, today.month);
    DayZeroIsLastOfPreviousMonth(today.year, today.month);
    WithinMonthBounds(pm, e.date);
  }

  lemma LastMonthTotalIsCalendarMonth(es: seq<Expense>, today: Day)
    ensures LastMonthTotal(es, today) == Sum(Filter(es, InMonth(PreviousMonth(today.year, today.month))))
  {
    forall i | 0 <= i < |es|
      ensures InLastMonth(today)(es[i]) == InMonth(PreviousMonth(today.year, today.month))(es[i])
    {
      InLastMonthIsCalendarMonth(today, es[i]);
    }
    FilterCongruent(es, InLastMonth(today), InMonth(PreviousMonth(today.year, today.month)));
  }

  /** On 2024-01-15 the previous month is December 2023. */
  lemma LastMonthRollover()
    ensures InLastMonth(Date(2024, 1, 15))(Expense("a", "u", "c", 1, None, Date(2023, 12, 31), 0, None))
    ensures InLastMonth(Date(2024, 1, 15))(Expense("b", "u", "c", 1, None, Date(2023, 12, 1), 0, None))
    ensures !InLastMonth(Date(2024, 1, 15))(Expense("c", "u", "c", 1, None, Date(2024, 1, 1), 0, None))
    ensures !InLastMonth(Date(2024, 1, 15))(Expense("d", "u", "c", 1, None, Date(2023, 11, 30), 0, None))
  {
    var today: Day := Date(2024, 1, 15);
    InLastMonthIsCalendarMonth(today, Expense("a", "u", "c", 1, None, Date(2023, 12, 31), 0, None));
    InLastMonthIsCalendarMonth(today, Expense("b", "u", "c", 1, None, Date(2023, 12, 1), 0, None));
    InLastMonthIsCalendarMonth(today, Expense("c", "u", "c", 1, None, Date(2024, 1, 1), 0, None));
    InLastMonthIsCalendarMonth(today, Expense("d", "u", "c", 1, None, Date(2023, 11, 30), 0, None));
  }

  // ---- totals ------------------------------------------------------------

  /** What `fetchData` derives from all expenses. */
  datatype Summary = Summary(total: int, weekly: seq<Bucket>, lastMonthDiff: int)

  function Summarize(all: seq<Expense>, today: Day): Summary
  {
    var total := Sum(all);
    Summary(total, WeeklyExpenses(all, today), total - LastMonthTotal(all, today))
  }

  function NotInLastMonth(today: Day): Expense -> bool
  {
    (e: Expense) => !InLastMonth(today)(e)
  }

  /** The difference is the all-time total minus last month's total: with
      non-negative amounts it is never negative and it is the sum of the
      expenses outside last month. */
  lemma DiffIsOutsideLastMonth(all: seq<Expense>, today: Day)
    requires NonNegative(all)
    ensures Summarize(all, today).lastMonthDiff == Sum(Filter(all, NotInLastMonth(today)))
    ensures Summarize(all, today).lastMonthDiff >= 0
    ensures Summarize(all, today).total == Sum(all)
  {
    var p := (e: Expense) => true;
    FilterAll(all, p);
    SumFilterDisjoint(all, p, InLastMonth(today), NotInLastMonth(today));
    SumFilterBound(all, NotInLastMonth(today));
  }

  function Sample(amount: int, date: Day): Expense
  {
    Expense("", "", "", amount, None, date, 0, None)
  }

  /** Amounts 10 (2024-03-01), 20 (2024-03-15) and 5 (2024-02-20), today
      2024-03-20: the difference shown is 35 - 5 = 30, not the
      current-month delta 30 - 5 = 25. */
  lemma DiffExample()
    ensures var s := Summarize([Sample(10, Date(2024, 3, 1)), Sample(20, Date(2024, 3, 15)), Sample(5, Date(2024, 2, 20))], Date(2024, 3, 20));
      s.total == 35 && s.lastMonthDiff == 30
  {
    var today: Day := Date(2024, 3, 20);
    var es := [Sample(10, Date(2024, 3, 1)), Sample(20, Date(2024, 3, 15)), Sample(5, Date(2024, 2, 20))];
    LastMonthTotalIsCalendarMonth(es, today);
    assert Filter(es, InMonth(PreviousMonth(2024, 3))) == [es[2]];
  }

  /** The text `{diff >= 0 ? '+' : '-'}{Math.abs(diff)}`. */
  datatype Signed = Signed(sign: char, magnitude: nat)

  function DiffDisplay(diff: int): (d: Signed)
    ensures d.sign == '+' || d.sign == '-'
    ensures d.sign == '+' <==> diff >= 0
  {
    if diff >= 0 then Signed('+', diff) else Signed('-', -diff)
  }

  function SignedValue(d: Signed): int
  {
    if d.sign == '+' then d.magnitude else -(d.magnitude as int)
  }

  /** The sign and the magnitude shown determine the difference; a zero
      difference is shown as "+0" (there is no third case). */
  lemma DiffDisplayRoundTrip(diff: int)
    ensures SignedValue(DiffDisplay(diff)) == diff
    ensures DiffDisplay(0) == Signed('+', 0)
  {
  }

  // ---- recent list and category totals ------------------------------------

  function CreatedAt(e: Expense): int
  {
    e.createdAt
  }

  /** `.order('created_at', { ascending: false }).limit(6)`. */
  function RecentExpenses(store: seq<Expense>): (r: seq<Expense>)
    ensures |r| == (if |store| < 6 then |store| else 6)
    ensures Ordered(r, CreatedAt, false)
    ensures forall i :: 0 <= i < |r| ==> r[i] in store
  {
    var sorted := Sort(store, CreatedAt, false);
    var r := Take(sorted, 6);
    forall i | 0 <= i < |r| ensures r[i] in store {
      assert r[i] == sorted[i];
      assert sorted[i] in multiset(sorted);
    }
    r
  }

  /** The recent list holds the newest expenses: everything left out of it
      was created no later than everything in it. */
  lemma RecentAreNewest(store: seq<Expense>)
    ensures var r := RecentExpenses(store);
      && multiset(r) <= multiset(store)
      && forall e, i :: e in multiset(store) - multiset(r) && 0 <= i < |r| ==> e.createdAt <= r[i].createdAt
  {
    var sorted := Sort(store, CreatedAt, false);
    var r := RecentExpenses(store);
    assert r == sorted[..|r|];
    NewestFirst(sorted, |r|);
  }

  lemma PrefixMultiset<T>(s: seq<T>, n: nat)
    requires n <= |s|
    ensures multiset(s[..n]) <= multiset(s)
    ensures multiset(s) - multiset(s[..n]) == multiset(s[n..])
  {
    assert s[..n] + s[n..] == s;
  }

  /** In a list ordered newest first, a prefix is no older than the rest. */
  lemma NewestFirst(sorted: seq<Expense>, n: nat)
    requires Ordered(sorted, CreatedAt, false) && n <= |sorted|
    ensures multiset(sorted[..n]) <= multiset(sorted)
    ensures forall e, i :: e in multiset(sorted) - multiset(sorted[..n]) && 0 <= i < n ==>
      e.createdAt <= sorted[i].createdAt
  {
    var rest := sorted[n..];
    PrefixMultiset(sorted, n);
    forall e, i | e in multiset(sorted) - multiset(sorted[..n]) && 0 <= i < n
      ensures e.createdAt <= sorted[i].createdAt
    {
      assert e in rest;
      var j :| 0 <= j < |rest| && rest[j] == e;
      assert InOrder(CreatedAt(sorted[i]), CreatedAt(sorted[n + j]), false);
    }
  }

  function InCategory(id: string): Expense -> bool
  {
    (e: Expense) => e.categoryId == id
  }

  /** `expenses.filter(e => e.category_id === category.id).reduce(...)`. */
  function CategoryTotal(recent: seq<Expense>, id: string): int
  {
    Sum(Filter(recent, InCategory(id)))
  }

  /** The totals shown for each category, in category order. */
  function CategoryTotals(recent: seq<Expense>, cats: seq<Category>): (ts: seq<int>)
    ensures |ts| == |cats|
    ensures forall i :: 0 <= i < |cats| ==> ts[i] == Sum(Filter(recent, InCategory(cats[i].id)))
  {
    if cats == [] then [] else [CategoryTotal(recent, cats[0].id)] + CategoryTotals(recent, cats[1..])
  }

  function SumInts(xs: seq<int>): int
  {
    if xs == [] then 0 else xs[0] + SumInts(xs[1..])
  }

  predicate DistinctIds(cats: seq<Category>)
  {
    forall i, j :: 0 <= i < j < |cats| ==> cats[i].id != cats[j].id
  }

  function InSomeCategory(cats: seq<Category>): Expense -> bool
  {
    (e: Expense) => exists i :: 0 <= i < |cats| && cats[i].id == e.categoryId
  }

  lemma {:induction false} CategoryTotalsCover(recent: seq<Expense>, cats: seq<Category>)
    requires DistinctIds(cats)
    ensures SumInts(CategoryTotals(recent, cats)) == Sum(Filter(recent, InSomeCategory(cats)))
  {
    if cats == [] {
      FilterNone(recent, InSomeCategory(cats));
    } else {
      CategoryTotalsCover(recent, cats[1..]);
      forall i | 0 <= i < |recent|
        ensures InSomeCategory(cats)(recent[i]) <==> InCategory(cats[0].id)(recent[i]) || InSomeCategory(cats[1..])(recent[i])
      {
        if InSomeCategory(cats)(recent[i]) {
          var k :| 0 <= k < |cats| && cats[k].id == recent[i].categoryId;
          if k > 0 {
            assert cats[1..][k - 1] == cats[k];
          }
        }
      }
      SumFilterDisjoint(recent, InSomeCategory(cats), InCategory(cats[0].id), InSomeCategory(cats[1..]));
    }
  }

  /** With distinct category ids and non-negative amounts, the category
      totals add up to at most the recent-list total, and to exactly it
      when every recent expense's category is listed. */
  lemma CategoryTotalsBounded(recent: seq<Expense>, cats: seq<Category>)
    requires DistinctIds(cats) && NonNegative(recent)
    ensures SumInts(CategoryTotals(recent, cats)) <= Sum(recent)
    ensures (forall i :: 0 <= i < |recent| ==> InSomeCategory(cats)(recent[i])) ==>
              SumInts(CategoryTotals(recent, cats)) == Sum(recent)
  {
    CategoryTotalsCover(recent, cats);
    SumFilterBound(recent, InSomeCategory(cats));
  }
}

=== FILE: dates.dfy ===
/** Calendar dates of the proleptic Gregorian calendar. A JavaScript `Date`
    built from a `YYYY-MM-DD` column value is modelled by its calendar
    triple; the millisecond time values the components subtract and compare
    are modelled by `DayNumber`, the count of days since 0001-01-01. */
module Dates {

  import opened Seqs

  datatype Date = Date(year: int, month: int, day: int)

  predicate IsLeapYear(y: int)
  {
    y % 4 == 0 && (y % 100 != 0 || y % 400 == 0)
  }

  function DaysInMonth(y: int, m: int): (n: int)
    requires 1 <= m <= 12
    ensures 28 <= n <= 31
  {
    if m == 2 then (if IsLeapYear(y) then 29 else 28)
    else if m == 4 || m == 6 || m == 9 || m == 11 then 30
    else 31
  }

  predicate IsValid(d: Date)
  {
    1 <= d.month <= 12 && 1 <= d.day <= DaysInMonth(d.year, d.month)
  }

  /** A date that exists in the calendar; every `date` column value is one. */
  type Day = d: Date | IsValid(d) witness Date(1970, 1, 1)

  /** Days in the years before `y` (so 0001-01-01 is day 0). */
  function DaysBeforeYear(y: int): int
  {
    var p := y - 1;
    365 * p + p / 4 - p / 100 + p / 400
  }

  /** Days in the months of year `y` before month `m` (`m == 13` gives the
      length of the year). */
  function DaysBeforeMonth(y: int, m: int): int
    requires 1 <= m <= 13
  {
    var common := [0, 31, 59, 90, 120, 151, 181, 212, 243, 273, 304, 334, 365][m - 1];
    if m > 2 && IsLeapYear(y) then common + 1 else common
  }

  function DayNumber(d: Day): int
  {
    DaysBeforeYear(d.year) + DaysBeforeMonth(d.year, d.month) + d.day - 1
  }

  /** Day of the week, 0 for Sunday through 6 for Saturday (0001-01-01 was a
      Monday). */
  function Weekday(d: Day): (w: int)
    ensures 0 <= w < 7
  {
    (DayNumber(d) + 1) % 7
  }

  /** Calendar order of dates. */
  predicate Before(a: Date, b: Date)
  {
    a.year < b.year
    || (a.year == b.year && a.month < b.month)
    || (a.year == b.year && a.month == b.month && a.day < b.day)
  }

  lemma MonthStep(y: int, m: int)
    requires 1 <= m <= 12
    ensures DaysBeforeMonth(y, m + 1) == DaysBeforeMonth(y, m) + DaysInMonth(y, m)
  {
  }

  lemma YearLength(y: int)
    ensures DaysBeforeYear(y + 1) == DaysBeforeYear(y) + DaysBeforeMonth(y, 13)
  {
    var p := y - 1;
    assert (p + 1) / 4 == p / 4 + (if y % 4 == 0 then 1 else 0);
    assert (p + 1) / 100 == p / 100 + (if y % 100 == 0 then 1 else 0);
    assert (p + 1) / 400 == p / 400 + (if y % 400 == 0 then 1 else 0);
  }

  lemma {:induction false} YearsIncrease(y1: int, y2: int)
    requires y1 < y2
    ensures DaysBeforeYear(y1) + DaysBeforeMonth(y1, 13) <= DaysBeforeYear(y2)
    decreases y2 - y1
  {
    YearLength(y1);
    if y1 + 1 < y2 {
      YearsIncrease(y1 + 1, y2);
      YearLength(y1 + 1);
    }
  }

  lemma {:induction false} MonthsIncrease(y: int, m1: int, m2: int)
    requires 1 <= m1 < m2 <= 13
    ensures DaysBeforeMonth(y, m1) + DaysInMonth(y, m1) <= DaysBeforeMonth(y, m2)
    decreases m2 - m1
  {
    MonthStep(y, m1);
    if m1 + 1 < m2 {
      MonthsIncrease(y, m1 + 1, m2);
    }
  }

  /** A date's day number lies inside its year and its month. */
  lemma DayNumberBounds(d: Day)
    ensures DaysBeforeYear(d.year) + DaysBeforeMonth(d.year, d.month) <= DayNumber(d)
    ensures DayNumber(d) < DaysBeforeYear(d.year) + DaysBeforeMonth(d.year, d.month + 1)
    ensures DayNumber(d) < DaysBeforeYear(d.year) + DaysBeforeMonth(d.year, 13)
  {
    MonthStep(d.year, d.month);
    if d.month < 12 {
      MonthsIncrease(d.year, d.month + 1, 13);
    }
  }

  /** Comparing day numbers (JavaScript time values) is comparing calendar
      dates: the map from dates to day numbers is strictly monotone. */
  lemma {:induction false} DayNumberOrder(a: Day, b: Day)
    ensures Before(a, b) <==> DayNumber(a) < DayNumber(b)
    ensures a == b <==> DayNumber(a) == DayNumber(b)
  {
    if Before(a, b) {
      DayNumberLess(a, b);
    } else if Before(b, a) {
      DayNumberLess(b, a);
    }
  }

  lemma DayNumberLess(a: Day, b: Day)
    requires Before(a, b)
    ensures DayNumber(a) < DayNumber(b)
  {
    DayNumberBounds(a);
    DayNumberBounds(b);
    if a.year < b.year {
      YearsIncrease(a.year, b.year);
    } else if a.month < b.month {
      MonthsIncrease(a.year, a.month, b.month);
    }
  }

  /** The calendar month a date falls in. */
  datatype YearMonth = YearMonth(year: int, month: int)

  /** `new Date(y, m - 1, 1)` for the month before `(y, m)`: JavaScript
      normalises month index -1 to December of the previous year. */
  function PreviousMonth(y: int, m: int): (r: YearMonth)
    requires 1 <= m <= 12
    ensures 1 <= r.month <= 12
    ensures r.month == m - 1 || (m == 1 && r.month == 12)
    ensures r.year == (if m == 1 then y - 1 else y)
  {
    if m == 1 then YearMonth(y - 1, 12) else YearMonth(y, m - 1)
  }

  function FirstOfMonth(ym: YearMonth): Day
    requires 1 <= ym.month <= 12
  {
    Date(ym.year, ym.month, 1)
  }

  function LastOfMonth(ym: YearMonth): Day
    requires 1 <= ym.month <= 12
  {
    Date(ym.year, ym.month, DaysInMonth(ym.year, ym.month))
  }

  /** `new Date(y, m, 0)`, day zero of a month, is the day before its first:
      the last day of the previous month. */
  lemma {:induction false} DayZeroIsLastOfPreviousMonth(y: int, m: int)
    requires 1 <= m <= 12
    ensures DayNumber(LastOfMonth(PreviousMonth(y, m))) + 1 == DayNumber(FirstOfMonth(YearMonth(y, m)))
  {
    if m == 1 {
      YearLength(y - 1);
    } else {
      MonthStep(y, m - 1);
    }
  }

  /** A date lies between the first and the last day of a month, inclusive,
      exactly when it is in that month. */
  lemma {:induction false} WithinMonthBounds(ym: YearMonth, d: Day)
    requires 1 <= ym.month <= 12
    ensures (DayNumber(FirstOfMonth(ym)) <= DayNumber(d) <= DayNumber(LastOfMonth(ym)))
            <==> (d.year == ym.year && d.month == ym.month)
  {
    DayNumberOrder(FirstOfMonth(ym), d);
    DayNumberOrder(d, LastOfMonth(ym));
  }

  // ---- the `YYYY-MM-DD` spelling ------------------------------------------

  function DigitChar(n: int): char
    requires 0 <= n <= 9
  {
    ('0' as int + n) as char
  }

  predicate IsDigit(c: char)
  {
    '0' <= c <= '9'
  }

  function DigitValue(c: char): int
    requires IsDigit(c)
  {
    c as int - '0' as int
  }

  /** Two decimal digits, zero-padded. */
  function Pad2(n: int): (s: string)
    requires 0 <= n <= 99
    ensures |s| == 2 && IsDigit(s[0]) && IsDigit(s[1])
    ensures 10 * DigitValue(s[0]) + DigitValue(s[1]) == n
  {
    [DigitChar(n / 10), DigitChar(n % 10)]
  }

  /** Four decimal digits, zero-padded. */
  function Pad4(n: int): (s: string)
    requires 0 <= n <= 9999
    ensures |s| == 4 && IsDigit(s[0]) && IsDigit(s[1]) && IsDigit(s[2]) && IsDigit(s[3])
    ensures 1000 * DigitValue(s[0]) + 100 * DigitValue(s[1]) + 10 * DigitValue(s[2]) + DigitValue(s[3]) == n
  {
    Pad2(n / 100) + Pad2(n % 100)
  }

  /** A date with a four-digit year, as the `date` column and the date inputs
      spell it (`format(date, 'yyyy-MM-dd')`, `toISOString().split('T')[0]`). */
  function IsoDate(d: Day): (s: string)
    requires 1 <= d.year <= 9999
    ensures |s| == 10 && s[4] == '-' && s[7] == '-'
  {
    Pad4(d.year) + "-" + Pad2(d.month) + "-" + Pad2(d.day)
  }

  /** Reads a `YYYY-MM-DD` string; anything else, or a day the calendar does
      not have, is `None`. */
  function ParseIso(s: string): Option<Day>
  {
    if |s| == 10 && s[4] == '-' && s[7] == '-'
       && IsDigit(s[0]) && IsDigit(s[1]) && IsDigit(s[2]) && IsDigit(s[3])
       && IsDigit(s[5]) && IsDigit(s[6]) && IsDigit(s[8]) && IsDigit(s[9])
    then
      var y := 1000 * DigitValue(s[0]) + 100 * DigitValue(s[1]) + 10 * DigitValue(s[2]) + DigitValue(s[3]);
      var m := 10 * DigitValue(s[5]) + DigitValue(s[6]);
      var d := 10 * DigitValue(s[8]) + DigitValue(s[9]);
      if IsValid(Date(y, m, d)) then Some(Date(y, m, d)) else None
    else None
  }

  /** Reading back a spelled date gives the date. */
  lemma IsoRoundTrip(d: Day)
    requires 1 <= d.year <= 9999
    ensures ParseIso(IsoDate(d)) == Some(d)
  {
    var s := IsoDate(d);
    var y, m, n := Pad4(d.year), Pad2(d.month), Pad2(d.day);
    assert s == y + "-" + m + "-" + n;
    assert s[0] == y[0] && s[1] == y[1] && s[2] == y[2] && s[3] == y[3];
    assert s[5] == m[0] && s[6] == m[1] && s[8] == n[0] && s[9] == n[1];
  }

  /** Distinct dates are spelled differently. */
  lemma IsoInjective(a: Day, b: Day)
    requires 1 <= a.year <= 9999 && 1 <= b.year <= 9999
    ensures IsoDate(a) == IsoDate(b) <==> a == b
  {
    if IsoDate(a) == IsoDate(b) {
      IsoRoundTrip(a);
      IsoRoundTrip(b);
    }
  }
}

=== FILE: domain.dfy ===
/** The records the components read from the backend, and the amount sums
    every component computes with `reduce((sum, e) => sum + e.amount, 0)`.
    Amounts are integer cents; `created_at` timestamps are modelled by an
    integer that orders them. */
module Domain {

  import opened Seqs
  import opened Dates

  datatype Category = Category(id: string, name: string, icon: string, color: string, userId: string)

  /** An expense row joined with its category (`category:categories(*)`). */
  datatype Expense = Expense(
    id: string,
    userId: string,
    categoryId: string,
    amount: int,
    tag: Option<string>,
    date: Day,
    createdAt: int,
    category: Option<Category>)

  datatype WeeklyLimit = WeeklyLimit(id: string, amount: int)

  /** Sum of the amounts of `es`. */
  function Sum(es: seq<Expense>): int
  {
    if es == [] then 0 else es[0].amount + Sum(es[1..])
  }

  predicate NonNegative(es: seq<Expense>)
  {
    forall i :: 0 <= i < |es| ==> es[i].amount >= 0
  }

  lemma {:induction false} SumAppend(a: seq<Expense>, b: seq<Expense>)
    ensures Sum(a + b) == Sum(a) + Sum(b)
  {
    if a == [] {
      assert a + b == b;
    } else {
      assert (a + b)[1..] == a[1..] + b;
      SumAppend(a[1..], b);
    }
  }

  /** Non-negative amounts have a non-negative sum. */
  lemma {:induction false} SumNonNegative(es: seq<Expense>)
    requires NonNegative(es)
    ensures Sum(es) >= 0
  {
    if es != [] {
      SumNonNegative(es[1..]);
    }
  }

  /** The sum does not depend on the order of the expenses. */
  lemma {:induction false} SumPermutation(a: seq<Expense>, b: seq<Expense>)
    requires multiset(a) == multiset(b)
    ensures Sum(a) == Sum(b)
    decreases |a|
  {
    if a != [] {
      var j := IndexIn(b, a[0]);
      var rest := b[..j] + b[j + 1..];
      SumRemove(b, j);
      MultisetRemove(b, j);
      MultisetTail(a);
      SumPermutation(a[1..], rest);
    }
  }

  lemma IndexIn(b: seq<Expense>, x: Expense) returns (j: nat)
    requires x in multiset(b)
    ensures j < |b| && b[j] == x
  {
    j :| 0 <= j < |b| && b[j] == x;
  }

  /** Taking one expense out of a list takes its amount out of the sum. */
  lemma {:induction false} SumRemove(b: seq<Expense>, j: nat)
    requires j < |b|
    ensures Sum(b) == b[j].amount + Sum(b[..j] + b[j + 1..])
  {
    var l, r := b[..j], b[j + 1..];
    assert b == (l + [b[j]]) + r;
    SumAppend(l + [b[j]], r);
    SumAppend(l, [b[j]]);
    SumAppend(l, r);
    assert Sum([b[j]]) == b[j].amount;
  }

  lemma MultisetTail(a: seq<Expense>)
    requires a != []
    ensures multiset(a[1..]) == multiset(a) - multiset{a[0]}
  {
    assert a == [a[0]] + a[1..];
  }

  lemma MultisetRemove(b: seq<Expense>, j: nat)
    requires j < |b|
    ensures multiset(b[..j] + b[j + 1..]) == multiset(b) - multiset{b[j]}
  {
    assert b == b[..j] + [b[j]] + b[j + 1..];
  }

  /** Splitting by a predicate splits the sum: the expenses satisfying `p`
      and those satisfying `q` add up to the sum of those satisfying
      `either`, when `either` is the disjoint union of the two. */
  lemma {:induction false} SumFilterDisjoint(es: seq<Expense>, either: Expense -> bool,
                                             p: Expense -> bool, q: Expense -> bool)
    requires forall i :: 0 <= i < |es| ==> (either(es[i]) <==> p(es[i]) || q(es[i]))
    requires forall i :: 0 <= i < |es| ==> !(p(es[i]) && q(es[i]))
    ensures Sum(Filter(es, either)) == Sum(Filter(es, p)) + Sum(Filter(es, q))
  {
    if es != [] {
      SumFilterDisjoint(es[1..], either, p, q);
      var e := es[0];
      SumAppend(if either(e) then [e] else [], Filter(es[1..], either));
      SumAppend(if p(e) then [e] else [], Filter(es[1..], p));
      SumAppend(if q(e) then [e] else [], Filter(es[1..], q));
    }
  }

  /** A filter of non-negative amounts sums to at most the whole, and to
      exactly the whole when nothing is filtered out. */
  lemma {:induction false} SumFilterBound(es: seq<Expense>, p: Expense -> bool)
    requires NonNegative(es)
    ensures 0 <= Sum(Filter(es, p)) <= Sum(es)
    ensures (forall i :: 0 <= i < |es| ==> p(es[i])) ==> Sum(Filter(es, p)) == Sum(es)
  {
    if es != [] {
      SumFilterBound(es[1..], p);
      SumAppend(if p(es[0]) then [es[0]] else [], Filter(es[1..], p));
    }
  }
}

=== FILE: editexpense.dfy ===
/** The edit form: loading an expense into the fields, the tag and category
    pickers with their suggestion filters, the update the form submits, and
    the calendar caption's month and year lists. */
module EditExpense {

  import opened Seqs
  import opened Text
  import opened Dates
  import opened Domain
  import opened Amounts

  /** The form's state. `amount` is the text of the amount field. */
  datatype EditForm = EditForm(
    amount: string,
    tag: string,
    categoryId: string,
    date: Day,
    calendarOpen: bool,
    submitting: bool,
    error: string,
    searchTerm: string,
    dropdownOpen: bool,
    tagSearchTerm: string,
    tagDropdownOpen: bool)

  /** The population effect, run when `isOpen` or `expense` changes: with an
      open form and an expense, every field is loaded from it and every
      transient part is reset; otherwise the form is left as it is. */
  function Populate(f: EditForm, isOpen: bool, expense: Option<Expense>): EditForm
  {
    if isOpen && expense.Some? then
      var e := expense.value;
      EditForm(FormatCents(e.amount), if e.tag.Some? then e.tag.value else "", e.categoryId, e.date,
               false, false, "", "", false, "", false)
    else f
  }

  /** Loading forgets the previous form and shows the expense's own values
      (a missing tag as the empty string), with both search texts cleared. */
  lemma PopulateLoads(f1: EditForm, f2: EditForm, e: Expense)
    ensures Populate(f1, true, Some(e)) == Populate(f2, true, Some(e))
    ensures var g := Populate(f1, true, Some(e));
      && ParseCents(g.amount) == Some(e.amount)
      && g.categoryId == e.categoryId && g.date == e.date
      && (e.tag.Some? ==> g.tag == e.tag.value) && (e.tag.None? ==> g.tag == "")
      && g.searchTerm == "" && g.tagSearchTerm == ""
      && !g.calendarOpen && !g.dropdownOpen && !g.tagDropdownOpen && !g.submitting && g.error == ""
    ensures Populate(f1, false, Some(e)) == f1 && Populate(f1, true, None) == f1
  {
    CentsRoundTrip(e.amount);
  }

  // ---- suggestions ---------------------------------------------------------

  function TagMatches(term: string): string -> bool
  {
    (t: string) => Contains(ToLower(t), ToLower(term))
  }

  /** `filteredTags`: the known tags containing the search text, ignoring case. */
  function FilteredTags(tags: seq<string>, term: string): (r: seq<string>)
    ensures IsSubsequence(r, tags)
    ensures forall t :: t in r <==> t in tags && Contains(ToLower(t), ToLower(term))
  {
    FilterIsSubsequence(tags, TagMatches(term));
    Filter(tags, TagMatches(term))
  }

  function NameMatches(term: string): Category -> bool
  {
    (c: Category) => Contains(ToLower(c.name), ToLower(term))
  }

  /** `filteredCategories`: the categories whose name contains the search
      text, ignoring case. */
  function FilteredCategories(cats: seq<Category>, term: string): (r: seq<Category>)
    ensures IsSubsequence(r, cats)
    ensures forall c :: c in r <==> c in cats && Contains(ToLower(c.name), ToLower(term))
  {
    FilterIsSubsequence(cats, NameMatches(term));
    Filter(cats, NameMatches(term))
  }

  /** An empty search text suggests everything. */
  lemma EmptySearchKeepsAll(tags: seq<string>, cats: seq<Category>)
    ensures FilteredTags(tags, "") == tags
    ensures FilteredCategories(cats, "") == cats
  {
    forall i | 0 <= i < |tags| ensures TagMatches("")(tags[i]) {
      ContainsEmpty(ToLower(tags[i]));
    }
    forall i | 0 <= i < |cats| ensures NameMatches("")(cats[i]) {
      ContainsEmpty(ToLower(cats[i].name));
    }
    FilterAll(tags, TagMatches(""));
    FilterAll(cats, NameMatches(""));
  }

  /** Every tag is suggested for its own spelling in any case. */
  lemma TagSuggestsItself(tags: seq<string>, t: string)
    requires t in tags
    ensures t in FilteredTags(tags, t)
    ensures t in FilteredTags(tags, ToLower(t))
  {
    ContainsSelf(ToLower(t));
    ToLowerIdempotent(t);
  }

  /** The tag field shows the search text while there is one, else the tag. */
  function TagFieldValue(f: EditForm): string
  {
    if f.tagSearchTerm != "" then f.tagSearchTerm else f.tag
  }

  /** The suggestion list appears only when open, searched and non-empty. */
  predicate ShowTagSuggestions(f: EditForm, tags: seq<string>)
  {
    f.tagDropdownOpen && f.tagSearchTerm != "" && |FilteredTags(tags, f.tagSearchTerm)| > 0
  }

  /** Typing in the tag field sets both the search text and the tag. */
  function TypeTag(f: EditForm, value: string): EditForm
  {
    f.(tagSearchTerm := value, tag := value, tagDropdownOpen := true)
  }

  /** `handleTagSelect`. */
  function SelectTag(f: EditForm, t: string): EditForm
  {
    f.(tag := t, tagSearchTerm := "", tagDropdownOpen := false)
  }

  /** Typing in the category field searches with the text and opens the list;
      the selected category is not changed by typing. */
  function TypeCategory(f: EditForm, value: string): (g: EditForm)
    ensures g.searchTerm == value && g.dropdownOpen
    ensures g == f.(searchTerm := g.searchTerm, dropdownOpen := g.dropdownOpen)
  {
    f.(searchTerm := value, dropdownOpen := true)
  }

  /** The category options on screen: none while the list is closed, the
      filtered categories while it is open. */
  function ShownCategories(f: EditForm, cats: seq<Category>): seq<Category>
  {
    if f.dropdownOpen then FilteredCategories(cats, f.searchTerm) else []
  }

  /** Typing a search lists exactly the categories whose name contains it,
      ignoring case, and keeps the selection; picking one of them afterwards
      selects it, closes the list and forgets the typed text. */
  lemma TypingCategory(f: EditForm, cats: seq<Category>, value: string)
    ensures var g := TypeCategory(f, value);
      && ShownCategories(g, cats) == FilteredCategories(cats, value)
      && (forall c :: c in ShownCategories(g, cats) <==> c in cats && Contains(ToLower(c.name), ToLower(value)))
      && g.categoryId == f.categoryId && SameOtherFields(f, g)
    ensures forall c :: c in ShownCategories(TypeCategory(f, value), cats) ==>
      var h := SelectCategory(TypeCategory(f, value), c.id);
      && SelectedCategory(cats, h.categoryId).Some? && SelectedCategory(cats, h.categoryId).value.id == c.id
      && ShownCategories(h, cats) == [] && h.searchTerm == ""
  {
    forall c | c in ShownCategories(TypeCategory(f, value), cats)
      ensures var h := SelectCategory(TypeCategory(f, value), c.id);
        && SelectedCategory(cats, h.categoryId).Some? && SelectedCategory(cats, h.categoryId).value.id == c.id
    {
      CategoryPicker(TypeCategory(f, value), cats, c);
    }
  }

  /** `handleCategorySelect`. */
  function SelectCategory(f: EditForm, id: string): EditForm
  {
    f.(categoryId := id, searchTerm := "", dropdownOpen := false)
  }

  /** The fields other than the tag and category pickers. */
  predicate SameOtherFields(f: EditForm, g: EditForm)
  {
    f.amount == g.amount && f.date == g.date && f.calendarOpen == g.calendarOpen
    && f.submitting == g.submitting && f.error == g.error
  }

  /** Typing shows what was typed and saves it as the tag, and lists the
      matching suggestions when there are any; it touches no other field. */
  lemma TypingTag(f: EditForm, tags: seq<string>, value: string)
    ensures TagFieldValue(TypeTag(f, value)) == value && TypeTag(f, value).tag == value
    ensures ShowTagSuggestions(TypeTag(f, value), tags) <==> value != "" && |FilteredTags(tags, value)| > 0
    ensures SameOtherFields(f, TypeTag(f, value))
  {
  }

  /** Picking a tag shows and saves that tag and hides the suggestions; it
      touches neither the other fields nor the category picker. */
  lemma PickingTag(f: EditForm, tags: seq<string>, t: string)
    ensures TagFieldValue(SelectTag(f, t)) == t && SelectTag(f, t).tag == t
    ensures !ShowTagSuggestions(SelectTag(f, t), tags)
    ensures SameOtherFields(f, SelectTag(f, t))
    ensures SelectTag(f, t).categoryId == f.categoryId && SelectTag(f, t).searchTerm == f.searchTerm
  {
  }

  /** `categories.find(cat => cat.id === categoryId)`. */
  function SelectedCategory(cats: seq<Category>, id: string): Option<Category>
  {
    Find(cats, WithId(id))
  }

  function WithId(id: string): Category -> bool
  {
    (c: Category) => c.id == id
  }

  /** Picking a listed category selects it (the placeholder then shows the
      first category with its id), closes the list, clears the search and
      touches nothing else. */
  lemma CategoryPicker(f: EditForm, cats: seq<Category>, c: Category)
    requires c in cats
    ensures var g := SelectCategory(f, c.id);
      && SelectedCategory(cats, g.categoryId).Some?
      && SelectedCategory(cats, g.categoryId).value.id == c.id
      && !g.dropdownOpen && g.searchTerm == ""
      && SameOtherFields(f, g) && g.tag == f.tag && g.tagSearchTerm == f.tagSearchTerm
  {
    var i :| 0 <= i < |cats| && cats[i] == c;
    assert WithId(c.id)(cats[i]);
  }

  // ---- the date field --------------------------------------------------------

  /** The date field's own click handler, taken alone: it opens or closes
      the calendar and changes nothing else. */
  function ToggleCalendar(f: EditForm): (g: EditForm)
    ensures g.calendarOpen <==> !f.calendarOpen
    ensures g == f.(calendarOpen := g.calendarOpen)
  {
    f.(calendarOpen := !f.calendarOpen)
  }

  /** The document's `mousedown` listener: a press outside the calendar's day
      grid closes an open calendar; a press inside it, or with the calendar
      closed, changes nothing. */
  function MouseDown(f: EditForm, insideCalendar: bool): (g: EditForm)
    ensures !insideCalendar ==> !g.calendarOpen
    ensures insideCalendar ==> g == f
    ensures g == f.(calendarOpen := g.calendarOpen)
  {
    if f.calendarOpen && !insideCalendar then f.(calendarOpen := false) else f
  }

  /** A click on the date field as the app runs it: the press reaches the
      document listener first (the field is outside the day grid), and the
      field's handler then sees the state that listener left. */
  function FieldClick(f: EditForm): EditForm
  {
    ToggleCalendar(MouseDown(f, false))
  }

  /** A click on the date field always leaves the calendar open, whatever its
      state before, so the field never closes it and a second click changes
      nothing; only a press elsewhere or a picked day closes it. */
  lemma FieldClickOpens(f: EditForm)
    ensures FieldClick(f).calendarOpen
    ensures FieldClick(f) == f.(calendarOpen := true)
    ensures FieldClick(FieldClick(f)) == FieldClick(f)
    ensures !MouseDown(FieldClick(f), false).calendarOpen
    ensures MouseDown(FieldClick(f), true) == FieldClick(f)
  {
  }

  /** `onSelect` with a date picks it and closes the calendar; a deselect
      (`None`) changes nothing. */
  function PickDate(f: EditForm, d: Option<Day>): (g: EditForm)
    ensures d.Some? ==> g.date == d.value && !g.calendarOpen
    ensures d.Some? ==> g == f.(date := g.date, calendarOpen := g.calendarOpen)
    ensures d.None? ==> g == f
  {
    if d.Some? then f.(date := d.value, calendarOpen := false) else f
  }

  /** Clicking the field and picking a day (a press inside the day grid, which
      the document listener ignores) closes the calendar and makes that day
      the one the update sends; a deselect keeps the calendar open with the
      old date. */
  lemma PickedDateIsSent(f: EditForm, d: Day, e: Expense)
    ensures var g := PickDate(MouseDown(FieldClick(f), true), Some(d));
      && !g.calendarOpen && g.date == d && g.amount == f.amount && g.tag == f.tag && g.categoryId == f.categoryId
      && Submit(g, Some(e)).request.date == d
    ensures var g := PickDate(MouseDown(FieldClick(f), true), None);
      g.calendarOpen && g.date == f.date
  {
  }

  // ---- submitting -------------------------------------------------------------

  /** The update sent for the expense with id `id`. `amount` is `None` where
      `parseFloat` gives `NaN`; the form does no validation of its own. */
  datatype Update = Update(id: string, amount: Option<int>, tag: string, categoryId: string, date: Day)

  datatype Submission = Ignored | Sending(form: EditForm, request: Update)

  /** `handleSubmit` up to the request: nothing without an expense; otherwise
      the error is cleared, the form is marked as submitting and the update
      carries the four fields. */
  function Submit(f: EditForm, expense: Option<Expense>): (s: Submission)
    ensures s.Ignored? <==> expense.None?
  {
    if expense.None? then Ignored
    else Sending(f.(error := "", submitting := true),
                 Update(expense.value.id, ParseCents(f.amount), f.tag, f.categoryId, f.date))
  }

  const FailureMessage := "Failed to update expense. Please try again."

  /** What the form reports back to its parent after the request. */
  datatype Outcome = Outcome(form: EditForm, notifyUpdated: bool, close: bool)

  /** The request's completion: success notifies the parent and closes;
      failure shows the message; either way submitting ends. */
  function Finish(f: EditForm, succeeded: bool): (o: Outcome)
    ensures !o.form.submitting
    ensures o.notifyUpdated == succeeded && o.close == succeeded
    ensures o.form.error == (if succeeded then f.error else FailureMessage)
  {
    if succeeded then Outcome(f.(submitting := false), true, true)
    else Outcome(f.(error := FailureMessage, submitting := false), false, false)
  }

  /** Saving a just-loaded form writes the expense's own values back, with a
      missing tag written as the empty string, and the date written as its
      `yyyy-MM-dd` spelling reads back as the same day. */
  lemma SaveUnchanged(f: EditForm, e: Expense)
    ensures var s := Submit(Populate(f, true, Some(e)), Some(e));
      s.Sending? && s.request == Update(e.id, Some(e.amount), if e.tag.Some? then e.tag.value else "", e.categoryId, e.date)
    ensures 1 <= e.date.year <= 9999 ==> ParseIso(IsoDate(Submit(Populate(f, true, Some(e)), Some(e)).request.date)) == Some(e.date)
  {
    CentsRoundTrip(e.amount);
    if 1 <= e.date.year <= 9999 {
      IsoRoundTrip(e.date);
    }
  }

  /** The update targets the expense's id and carries exactly what the
      fields hold; a failed request keeps every field for a retry. */
  lemma SubmitCarriesFields(f: EditForm, e: Expense)
    ensures var s := Submit(f, Some(e));
      && s.request.id == e.id && s.request.amount == ParseCents(f.amount)
      && s.request.tag == f.tag && s.request.categoryId == f.categoryId && s.request.date == f.date
      && s.form.submitting && s.form.error == ""
    ensures var g := Finish(Submit(f, Some(e)).form, false).form;
      g.amount == f.amount && g.tag == f.tag && g.categoryId == f.categoryId && g.date == f.date
      && g.error == FailureMessage && !g.submitting
  {
  }

  // ---- the calendar caption -------------------------------------------------

  /** The caption's year list for a month of year `y`. */
  function Years(y: int): (ys: seq<int>)
    ensures |ys| == 10
    ensures forall x :: x in ys <==> y - 5 <= x <= y + 4
    ensures y in ys
    ensures forall i, j :: 0 <= i < j < |ys| ==> ys[i] < ys[j]
  {
    var ys := seq(10, i => y - 5 + i);
    assert ys[5] == y;
    forall x | y - 5 <= x <= y + 4 ensures x in ys {
      assert ys[x - y + 5] == x;
    }
    ys
  }

  /** The caption's month list: the first day of each month of year `y`. */
  function Months(y: int): (ms: seq<Day>)
    ensures |ms| == 12
    ensures forall i :: 0 <= i < 12 ==> ms[i].year == y && ms[i].month == i + 1 && ms[i].day == 1
    ensures forall i, j :: 0 <= i < j < |ms| ==> DayNumber(ms[i]) < DayNumber(ms[j])
  {
    var ms := seq(12, (i: int) requires 0 <= i < 12 => FirstOfMonth(YearMonth(y, i + 1)));
    forall i, j | 0 <= i < j < |ms| ensures DayNumber(ms[i]) < DayNumber(ms[j]) {
      DayNumberLess(ms[i], ms[j]);
    }
    ms
  }

  /** The caption: the month on display and its two lists. */
  datatype Caption = Caption(display: YearMonth, monthsOpen: bool, yearsOpen: bool)

  datatype CaptionEvent = ToggleMonths | ToggleYears | PickMonth(index: int) | PickYear(year: int)

  /** A toggle flips its own list and closes the other; picking a month or a
      year moves the display (a year keeps the month) and closes its list. */
  function Step(c: Caption, ev: CaptionEvent): Caption
  {
    match ev
    case ToggleMonths => c.(monthsOpen := !c.monthsOpen, yearsOpen := false)
    case ToggleYears => c.(yearsOpen := !c.yearsOpen, monthsOpen := false)
    case PickMonth(i) =>
      if 0 <= i < 12 then c.(display := YearMonth(c.display.year, i + 1), monthsOpen := false) else c
    case PickYear(y) => c.(display := YearMonth(y, c.display.month), yearsOpen := false)
  }

  predicate OneListOpen(c: Caption)
  {
    !(c.monthsOpen && c.yearsOpen)
  }

  lemma {:induction false} NeverBothOpen(c: Caption, evs: seq<CaptionEvent>)
    requires OneListOpen(c)
    ensures OneListOpen(Fold(c, evs))
    decreases |evs|
  {
    if evs != [] {
      NeverBothOpen(Step(c, evs[0]), evs[1..]);
    }
  }

  function Fold(c: Caption, evs: seq<CaptionEvent>): Caption
    decreases |evs|
  {
    if evs == [] then c else Fold(Step(c, evs[0]), evs[1..])
  }

  /** Picking the `i`-th listed month displays that month; picking a listed
      year keeps the month and stays within five years of the old display. */
  lemma CaptionPicks(c: Caption, i: int, y: int)
    requires 1 <= c.display.month <= 12
    requires 0 <= i < 12 && y in Years(c.display.year)
    ensures var m := Months(c.display.year)[i];
      Step(c, PickMonth(i)).display == YearMonth(m.year, m.month)
    ensures Step(c, PickYear(y)).display.month == c.display.month
    ensures c.display.year - 5 <= Step(c, PickYear(y)).display.year <= c.display.year + 4
  {
  }
}

=== FILE: expenselist.dfy ===
/** The expense list: expenses grouped under a `format(date, 'EEEE, d')`
    heading ("Monday, 14"), or an empty-state message when there are none. */
module ExpenseList {

  import opened Seqs
  import opened Dates
  import opened Domain
  import opened Grouping

  /** The heading `EEEE, d`: the weekday name and the day of the month.
      Distinct pairs are spelled differently, so the pair is the key. */
  datatype DateLabel = DateLabel(weekday: int, dayOfMonth: int)

  function LabelOf(d: Day): DateLabel
  {
    DateLabel(Weekday(d), d.day)
  }

  function ExpenseLabel(e: Expense): DateLabel
  {
    LabelOf(e.date)
  }

  datatype View = EmptyState | Groups(groups: seq<Group<DateLabel, Expense>>)

  /** What the component renders for `expenses`. */
  function Render(expenses: seq<Expense>): (v: View)
    ensures v.EmptyState? <==> expenses == []
  {
    if expenses == [] then EmptyState else Groups(GroupBy(expenses, ExpenseLabel))
  }

  /** The headings partition the list: every expense is in exactly the group
      of its label, each group holds the expenses with that label in input
      order, labels are distinct, and the group sizes add up to the length
      of the list. */
  lemma RenderPartitions(expenses: seq<Expense>)
    requires expenses != []
    ensures var gs := Render(expenses).groups;
      && DistinctKeys(gs)
      && (forall i :: 0 <= i < |gs| ==>
            gs[i].items == WithKey(expenses, ExpenseLabel, gs[i].key) && gs[i].items != [])
      && (forall e :: e in expenses ==> exists i :: 0 <= i < |gs| && gs[i].key == ExpenseLabel(e))
      && multiset(Flatten(gs)) == multiset(expenses)
      && |Flatten(gs)| == |expenses|
  {
    GroupByPartition(expenses, ExpenseLabel);
    GroupBySizes(expenses, ExpenseLabel);
    assert Render(expenses).groups == GroupBy(expenses, ExpenseLabel);
  }

  /** Headings appear in the order their labels first occur. */
  lemma RenderFirstOccurrence(expenses: seq<Expense>)
    requires expenses != []
    ensures var gs := Render(expenses).groups;
      forall i, j :: 0 <= i < j < |gs| ==>
        FirstIndex(expenses, ExpenseLabel, gs[i].key) < FirstIndex(expenses, ExpenseLabel, gs[j].key)
  {
    GroupByFirstOccurrence(expenses, ExpenseLabel);
    assert Render(expenses).groups == GroupBy(expenses, ExpenseLabel);
  }

  /** When expenses with the same label are adjacent in the list, reading
      the groups in order gives back the list. */
  lemma RenderContiguous(expenses: seq<Expense>)
    requires expenses != [] && Contiguous(expenses, ExpenseLabel)
    ensures Flatten(Render(expenses).groups) == expenses
  {
    GroupByContiguous(expenses, ExpenseLabel);
  }

  /** Expenses on the same date share a group. */
  lemma SameDateSameGroup(expenses: seq<Expense>, a: Expense, b: Expense)
    requires a in expenses && b in expenses && a.date == b.date
    ensures var gs := Render(expenses).groups;
      exists i :: 0 <= i < |gs| && a in gs[i].items && b in gs[i].items
  {
    var gs := Render(expenses).groups;
    GroupByPartition(expenses, ExpenseLabel);
    var i :| 0 <= i < |gs| && gs[i].key == ExpenseLabel(a);
    assert a in gs[i].items && b in gs[i].items;
  }

  /** 2024-01-01 and 2024-04-01 are both "Monday, 1": their expenses are
      listed under one heading although the dates differ. */
  lemma DistinctDatesMerge()
    ensures var a := Expense("a", "u", "c", 100, None, Date(2024, 1, 1), 0, None);
      var b := Expense("b", "u", "c", 200, None, Date(2024, 4, 1), 1, None);
      Render([a, b]) == Groups([Group(DateLabel(1, 1), [a, b])])
  {
    var a := Expense("a", "u", "c", 100, None, Date(2024, 1, 1), 0, None);
    var b := Expense("b", "u", "c", 200, None, Date(2024, 4, 1), 1, None);
    assert ExpenseLabel(a) == DateLabel(1, 1);
    assert ExpenseLabel(b) == DateLabel(1, 1);
    assert [a, b][..1] == [a];
    assert GroupBy([a], ExpenseLabel) == [Group(DateLabel(1, 1), [a])];
    assert GroupBy([a, b], ExpenseLabel) == Place([Group(DateLabel(1, 1), [a])], DateLabel(1, 1), b);
    assert [a] + [b] == [a, b];
  }
}

=== FILE: expensesmodal.dfy ===
/** The "All Expenses" browser: its filter state and the events that change
    it, the search-term editor, the filter the backend query expresses,
    single-key ordering, the total and the date-label groups. */
module ExpensesModal {

  import opened Seqs
  import opened Text
  import opened Dates
  import opened Domain
  import opened Ordering
  import opened Grouping
  import opened ExpenseList

  datatype SortKey = ByDate | ByAmount

  datatype SortOrder = Asc | Desc

  /** The inclusive date range `[start, end]` of the two date inputs. */
  datatype Range = Range(start: Day, end: Day)

  datatype Sheet = CategorySheet | DateSheet | SortSheet

  /** The browser's state; `input` is the text in the search box. */
  datatype Browser = Browser(
    selected: seq<string>,
    sortBy: SortKey,
    order: SortOrder,
    terms: seq<string>,
    input: string,
    range: Range,
    categorySheet: bool,
    dateSheet: bool,
    sortSheet: bool)

  // ---- defaults and reset --------------------------------------------------

  /** `getCurrentMonthRange`: from the first of today's month through today. */
  function CurrentMonthRange(today: Day): (r: Range)
    ensures r.end == today
    ensures r.start.year == today.year && r.start.month == today.month && r.start.day == 1
    ensures DayNumber(r.start) <= DayNumber(r.end)
  {
    var start: Day := Date(today.year, today.month, 1);
    DayNumberOrder(start, today);
    Range(start, today)
  }

  /** The range's spellings: the start is today's `YYYY-MM` followed by
      `-01`, the end is today's `YYYY-MM-DD`. */
  lemma CurrentMonthSpelling(today: Day)
    requires 1 <= today.year <= 9999
    ensures IsoDate(CurrentMonthRange(today).start) == IsoDate(today)[..7] + "-01"
    ensures IsoDate(CurrentMonthRange(today).end) == IsoDate(today)
  {
    var start := CurrentMonthRange(today).start;
    assert Pad2(1) == "01";
    assert IsoDate(today)[..7] == Pad4(today.year) + "-" + Pad2(today.month);
    assert IsoDate(start) == Pad4(today.year) + "-" + Pad2(today.month) + "-" + Pad2(1);
  }

  /** The state on mount and after every reset: no category, date order
      descending, no terms, this month's range, every sheet closed (the
      search box is re-created empty when the modal reopens). */
  function Defaults(today: Day): Browser
  {
    Browser([], ByDate, Desc, [], "", CurrentMonthRange(today), false, false, false)
  }

  /** The reset effect, run when `isOpen` changes. */
  function OnOpenChange(b: Browser, isOpen: bool, today: Day): Browser
  {
    if isOpen then Defaults(today) else b
  }

  // ---- the search-term editor ---------------------------------------------

  /** Append `t` unless it is empty or already present (exact comparison). */
  function AddTerm(terms: seq<string>, t: string): (r: seq<string>)
    ensures KeepsOldTerms(terms, r)
    ensures |r| == |terms| + (if t != "" && t !in terms then 1 else 0)
    ensures t != "" ==> t in r
    ensures forall x :: x in r ==> x in terms || x == t
  {
    if t != "" && t !in terms then terms + [t] else terms
  }

  /** The old terms `a` stay, in order, at the front of `b`. */
  predicate KeepsOldTerms(a: seq<string>, b: seq<string>)
  {
    |a| <= |b| && b[..|a|] == a
  }

  /** The search box's `onChange`: a value ending in a space adds its
      trimmed text as a term and empties the box; any other value is kept. */
  function TypeInput(b: Browser, value: string): Browser
  {
    if EndsWith(value, " ") then b.(terms := AddTerm(b.terms, Trim(value)), input := "")
    else b.(input := value)
  }

  datatype Key = Enter | Backspace | OtherKey

  /** The search box's `onKeyDown`. */
  function KeyDown(b: Browser, k: Key): Browser
  {
    if k == Enter && Trim(b.input) != "" then b.(terms := AddTerm(b.terms, Trim(b.input)), input := "")
    else if k == Backspace && b.input == "" && |b.terms| > 0 then b.(terms := b.terms[..|b.terms| - 1])
    else b
  }

  function Other(t: string): string -> bool
  {
    (x: string) => x != t
  }

  /** `removeSearchTerm(t)`: every copy of `t` goes, the other terms keep
      their order, and nothing else changes. */
  function RemoveTerm(b: Browser, t: string): (r: Browser)
    ensures t !in r.terms
    ensures forall x :: x in b.terms && x != t ==> x in r.terms
    ensures IsSubsequence(r.terms, b.terms)
    ensures r == b.(terms := r.terms)
  {
    FilterIsSubsequence(b.terms, Other(t));
    b.(terms := Filter(b.terms, Other(t)))
  }

  /** The terms are distinct, non-empty and trimmed. */
  predicate WellFormedTerms(terms: seq<string>)
  {
    NoDuplicates(terms) && forall i :: 0 <= i < |terms| ==> terms[i] != [] && IsTrimmed(terms[i])
  }

  lemma AddTermKeeps(terms: seq<string>, value: string)
    requires WellFormedTerms(terms)
    ensures WellFormedTerms(AddTerm(terms, Trim(value)))
  {
    var t := Trim(value);
    if t != "" && t !in terms {
      var r := terms + [t];
      assert r[|terms|] == t;
      forall i, j | 0 <= i < j < |r| ensures r[i] != r[j] {
        if j == |terms| {
          assert r[i] == terms[i];
        }
      }
    }
  }

  /** The tail of a duplicate-free sequence is duplicate-free and lacks the head. */
  lemma TailNoDuplicates(s: seq<string>)
    requires NoDuplicates(s) && s != []
    ensures NoDuplicates(s[1..]) && s[0] !in s[1..]
  {
    assert forall j :: 0 <= j < |s[1..]| ==> s[1..][j] == s[1 + j];
  }

  lemma {:induction false} FilterNoDuplicates(s: seq<string>, p: string -> bool)
    requires NoDuplicates(s)
    ensures NoDuplicates(Filter(s, p))
  {
    if s != [] {
      TailNoDuplicates(s);
      FilterNoDuplicates(s[1..], p);
    }
  }

  /** With distinct terms, filtering out a present term drops exactly one. */
  lemma {:induction false} FilterRemovesOne(s: seq<string>, t: string)
    requires NoDuplicates(s) && t in s
    ensures |Filter(s, Other(t))| == |s| - 1
  {
    TailNoDuplicates(s);
    if s[0] == t {
      assert forall i :: 0 <= i < |s[1..]| ==> Other(t)(s[1..][i]);
      FilterAll(s[1..], Other(t));
    } else {
      FilterRemovesOne(s[1..], t);
    }
  }

  /** Every edit keeps the terms distinct, non-empty and trimmed. */
  lemma TypeInputKeepsWellFormed(b: Browser, value: string)
    requires WellFormedTerms(b.terms)
    ensures WellFormedTerms(TypeInput(b, value).terms)
  {
    AddTermKeeps(b.terms, value);
  }

  lemma KeyDownKeepsWellFormed(b: Browser, k: Key)
    requires WellFormedTerms(b.terms)
    ensures WellFormedTerms(KeyDown(b, k).terms)
  {
    AddTermKeeps(b.terms, b.input);
    if k == Backspace && b.input == "" && |b.terms| > 0 {
      var r := b.terms[..|b.terms| - 1];
      assert forall i :: 0 <= i < |r| ==> r[i] == b.terms[i];
    }
  }

  lemma RemoveTermKeepsWellFormed(b: Browser, t: string)
    requires WellFormedTerms(b.terms)
    ensures WellFormedTerms(RemoveTerm(b, t).terms)
  {
    FilterNoDuplicates(b.terms, Other(t));
    var r := RemoveTerm(b, t).terms;
    forall i | 0 <= i < |r| ensures r[i] != [] && IsTrimmed(r[i]) {
      assert r[i] in b.terms;
    }
  }

  /** Typing appends the trimmed value exactly when the value ends in a
      space and its trimmed text is non-empty and new; a value ending in a
      space always empties the box. */
  lemma TypeInputAppends(b: Browser, value: string)
    ensures TypeInput(b, value).terms == b.terms + [Trim(value)] <==>
              EndsWith(value, " ") && Trim(value) != "" && Trim(value) !in b.terms
    ensures TypeInput(b, value).input == (if EndsWith(value, " ") then "" else value)
  {
    if TypeInput(b, value).terms == b.terms + [Trim(value)] {
      assert |TypeInput(b, value).terms| == |b.terms| + 1;
    }
  }

  /** Enter appends the trimmed box text exactly when it is non-empty and new,
      and empties the box whenever the trimmed text is non-empty. */
  lemma EnterAppends(b: Browser)
    ensures KeyDown(b, Enter).terms == b.terms + [Trim(b.input)] <==>
              Trim(b.input) != "" && Trim(b.input) !in b.terms
    ensures KeyDown(b, Enter).input == (if Trim(b.input) != "" then "" else b.input)
  {
    if KeyDown(b, Enter).terms == b.terms + [Trim(b.input)] {
      assert |KeyDown(b, Enter).terms| == |b.terms| + 1;
    }
  }

  /** Backspace in an empty box drops exactly the last term. */
  lemma BackspacePops(b: Browser)
    requires b.input == "" && b.terms != []
    ensures KeyDown(b, Backspace).terms + [b.terms[|b.terms| - 1]] == b.terms
  {
  }

  /** With distinct terms, removing a present term shortens the list by one. */
  lemma RemoveTermOnce(b: Browser, t: string)
    requires NoDuplicates(b.terms) && t in b.terms
    ensures |RemoveTerm(b, t).terms| == |b.terms| - 1
  {
    FilterRemovesOne(b.terms, t);
  }

  /** Removing a term just added by typing restores the term list. */
  lemma RemoveUndoesAdd(b: Browser, value: string)
    requires EndsWith(value, " ") && Trim(value) != "" && Trim(value) !in b.terms
    ensures RemoveTerm(TypeInput(b, value), Trim(value)).terms == b.terms
  {
    var t := Trim(value);
    FilterAppend(b.terms, [t], Other(t));
    FilterAll(b.terms, Other(t));
  }

  /** Backspace in the emptied box undoes an Enter that added a term. */
  lemma BackspaceUndoesEnter(b: Browser)
    requires Trim(b.input) != "" && Trim(b.input) !in b.terms
    ensures KeyDown(KeyDown(b, Enter), Backspace).terms == b.terms
  {
  }

  /** Duplicates are compared exactly: "food" is added next to "Food". */
  lemma CaseSensitiveTerms()
    ensures AddTerm(["Food"], "food") == ["Food", "food"]
  {
  }

  // ---- the other controls ---------------------------------------------------

  datatype Event =
    | Open(today: Day)
    | Type(value: string)
    | Press(key: Key)
    | Remove(term: string)
    | PickAll
    | PickCategory(id: string)
    | PickSort(sortKey: SortKey)
    | SetAscending(checked: bool)
    | SetStart(start: Day)
    | SetEnd(end: Day)
    | ShowSheet(sheet: Sheet)
    | HideSheet(sheet: Sheet)

  function WithSheet(b: Browser, s: Sheet, open: bool): Browser
  {
    match s
    case CategorySheet => b.(categorySheet := open)
    case DateSheet => b.(dateSheet := open)
    case SortSheet => b.(sortSheet := open)
  }

  /** The effect of one event. Picking a category replaces the selection;
      the sort and order pickers and the date inputs close their sheet (the
      other bound is always set, since clearing a date input is not
      modelled). */
  function Apply(b: Browser, ev: Event): Browser
  {
    match ev
    case Open(today) => OnOpenChange(b, true, today)
    case Type(value) => TypeInput(b, value)
    case Press(key) => KeyDown(b, key)
    case Remove(term) => RemoveTerm(b, term)
    case PickAll => b.(selected := [], categorySheet := false)
    case PickCategory(id) => b.(selected := [id], categorySheet := false)
    case PickSort(sortKey) => b.(sortBy := sortKey, sortSheet := false)
    case SetAscending(checked) => b.(order := if checked then Asc else Desc, sortSheet := false)
    case SetStart(start) => b.(range := b.range.(start := start), dateSheet := false)
    case SetEnd(end) => b.(range := b.range.(end := end), dateSheet := false)
    case ShowSheet(s) => WithSheet(b, s, true)
    case HideSheet(s) => WithSheet(b, s, false)
  }

  function Run(b: Browser, evs: seq<Event>): Browser
    decreases |evs|
  {
    if evs == [] then b else Run(Apply(b, evs[0]), evs[1..])
  }

  /** What every reachable state satisfies: single-select categories and
      well-formed terms. */
  predicate Invariant(b: Browser)
  {
    |b.selected| <= 1 && WellFormedTerms(b.terms)
  }

  lemma ApplyKeepsInvariant(b: Browser, ev: Event)
    requires Invariant(b)
    ensures Invariant(Apply(b, ev))
  {
    match ev
    case Type(value) => TypeInputKeepsWellFormed(b, value);
    case Press(key) => KeyDownKeepsWellFormed(b, key);
    case Remove(term) => RemoveTermKeepsWellFormed(b, term);
    case _ =>
  }

  /** From the defaults, every sequence of events keeps the invariant. */
  lemma {:induction false} RunKeepsInvariant(b: Browser, evs: seq<Event>)
    requires Invariant(b)
    ensures Invariant(Run(b, evs))
    decreases |evs|
  {
    if evs != [] {
      ApplyKeepsInvariant(b, evs[0]);
      RunKeepsInvariant(Apply(b, evs[0]), evs[1..]);
    }
  }

  /** Opening forgets everything that happened before. */
  lemma OpenForgets(b1: Browser, b2: Browser, today: Day)
    ensures Apply(b1, Open(today)) == Apply(b2, Open(today))
    ensures Invariant(Apply(b1, Open(today)))
    ensures OnOpenChange(b1, false, today) == b1
  {
  }

  // ---- the query --------------------------------------------------------------

  predicate InRange(r: Range, e: Expense)
  {
    DayNumber(r.start) <= DayNumber(e.date) <= DayNumber(r.end)
  }

  /** `.in('category_id', selected)`, applied only when something is selected. */
  predicate CategoryAllowed(selected: seq<string>, e: Expense)
  {
    selected == [] || e.categoryId in selected
  }

  /** `LOWER(tag) LIKE '%term%'` or the expense's category name likewise. */
  predicate TermMatches(t: string, e: Expense, cats: seq<Category>)
  {
    (e.tag.Some? && Contains(ToLower(e.tag.value), ToLower(t)))
    || exists i :: 0 <= i < |cats| && cats[i].id == e.categoryId && Contains(ToLower(cats[i].name), ToLower(t))
  }

  /** The `.or(...)` of all terms, applied only when there are terms. */
  predicate SearchAllows(terms: seq<string>, e: Expense, cats: seq<Category>)
  {
    terms == [] || exists i :: 0 <= i < |terms| && TermMatches(terms[i], e, cats)
  }

  predicate Keeps(b: Browser, cats: seq<Category>, e: Expense)
  {
    InRange(b.range, e) && CategoryAllowed(b.selected, e) && SearchAllows(b.terms, e, cats)
  }

  function KeepsFn(b: Browser, cats: seq<Category>): Expense -> bool
  {
    (e: Expense) => Keeps(b, cats, e)
  }

  function DateKey(e: Expense): int
  {
    DayNumber(e.date)
  }

  function AmountKey(e: Expense): int
  {
    e.amount
  }

  function KeyOf(k: SortKey): Expense -> int
  {
    if k == ByDate then DateKey else AmountKey
  }

  /** `fetchFilteredExpenses` over the stored expenses `store` and the
      categories table `cats`: the kept expenses, ordered by the one key. */
  function Query(store: seq<Expense>, cats: seq<Category>, b: Browser): (r: seq<Expense>)
    ensures forall e :: e in r ==> e in store && Keeps(b, cats, e)
    ensures forall e :: e in store && Keeps(b, cats, e) ==> e in r
    ensures multiset(r) == multiset(Filter(store, KeepsFn(b, cats)))
    ensures Ordered(r, KeyOf(b.sortBy), b.order == Asc)
  {
    var kept := Filter(store, KeepsFn(b, cats));
    var r := Sort(kept, KeyOf(b.sortBy), b.order == Asc);
    assert forall e :: e in r <==> e in multiset(kept);
    r
  }

  /** With at least one term, another term never removes a result. */
  lemma MoreTermsNeverShrink(store: seq<Expense>, cats: seq<Category>, b: Browser, t: string)
    requires b.terms != []
    ensures forall e :: e in Query(store, cats, b) ==> e in Query(store, cats, b.(terms := b.terms + [t]))
  {
    var b' := b.(terms := b.terms + [t]);
    forall e | e in Query(store, cats, b) ensures e in Query(store, cats, b') {
      var i :| 0 <= i < |b.terms| && TermMatches(b.terms[i], e, cats);
      assert b'.terms[i] == b.terms[i];
    }
  }

  /** The first term does narrow the list: an expense shown with no terms
      disappears when a term matching neither its tag nor its category is
      added. */
  lemma FirstTermNarrows(e: Expense)
    requires e.date == Date(2024, 3, 10) && e.tag == Some("lunch")
    ensures Query([e], [], Defaults(Date(2024, 3, 20))) == [e]
    ensures Query([e], [], Defaults(Date(2024, 3, 20)).(terms := ["zzz"])) == []
  {
    var b := Defaults(Date(2024, 3, 20));
    MidMarchShown(e);
    QuerySingle(e, [], b);
    LunchLacksZzz(e);
    QuerySingle(e, [], b.(terms := ["zzz"]));
  }

  lemma MidMarchShown(e: Expense)
    requires e.date == Date(2024, 3, 10)
    ensures InRange(Defaults(Date(2024, 3, 20)).range, e)
  {
    DayNumberOrder(Date(2024, 3, 1), e.date);
    DayNumberOrder(e.date, Date(2024, 3, 20));
  }

  /** A one-expense store shows that expense exactly when it is kept. */
  lemma QuerySingle(e: Expense, cats: seq<Category>, b: Browser)
    ensures Query([e], cats, b) == if Keeps(b, cats, e) then [e] else []
  {
    var r := Query([e], cats, b);
    if Keeps(b, cats, e) {
      assert Filter([e], KeepsFn(b, cats)) == [e];
      assert |r| == |multiset(r)| == 1;
      assert r[0] in r;
    } else {
      FilterNone([e], KeepsFn(b, cats));
      assert |r| == |multiset(r)| == 0;
    }
  }

  lemma LunchLacksZzz(e: Expense)
    requires e.tag == Some("lunch")
    ensures !TermMatches("zzz", e, [])
  {
    assert ToLower("lunch") == "lunch" && ToLower("zzz") == "zzz";
    if Contains("lunch", "zzz") {
      ContainsFirstChar("lunch", "zzz");
    }
  }

  /** An empty selection applies no category condition; a picked category
      keeps exactly the expenses of that category. */
  lemma CategoryChoice(b: Browser, cats: seq<Category>, e: Expense, id: string)
    ensures Keeps(Apply(b, PickAll), cats, e) <==> InRange(b.range, e) && SearchAllows(b.terms, e, cats)
    ensures Keeps(Apply(b, PickCategory(id)), cats, e) <==>
              InRange(b.range, e) && e.categoryId == id && SearchAllows(b.terms, e, cats)
  {
  }

  /** A start after the end selects nothing. */
  lemma ReversedRangeIsEmpty(store: seq<Expense>, cats: seq<Category>, b: Browser)
    requires DayNumber(b.range.end) < DayNumber(b.range.start)
    ensures Query(store, cats, b) == []
  {
    FilterNone(store, KeepsFn(b, cats));
  }

  /** The query for the filters as opening leaves them selects exactly this
      month's expenses up to today. */
  lemma OpenShowsThisMonth(store: seq<Expense>, cats: seq<Category>, b: Browser, today: Day, e: Expense)
    ensures e in Query(store, cats, Apply(b, Open(today))) <==>
      e in store && e.date.year == today.year && e.date.month == today.month && DayNumber(e.date) <= DayNumber(today)
  {
    var start := CurrentMonthRange(today).start;
    WithinMonthBounds(YearMonth(today.year, today.month), e.date);
    assert FirstOfMonth(YearMonth(today.year, today.month)) == start;
    DayNumberBounds(today);
    DayNumberBounds(e.date);
    if e.date.year == today.year && e.date.month == today.month && DayNumber(e.date) <= DayNumber(today) {
      assert DayNumber(e.date) <= DayNumber(LastOfMonth(YearMonth(today.year, today.month))) by {
        DayNumberOrder(today, LastOfMonth(YearMonth(today.year, today.month)));
      }
    }
    if InRange(CurrentMonthRange(today), e) {
      DayNumberOrder(today, LastOfMonth(YearMonth(today.year, today.month)));
    }
  }

  /** Ordering has one key and no tie-break: two expenses on the same date
      may come in either order, whatever their creation times. */
  lemma NoTieBreak(a: Expense, b: Expense, ascending: bool)
    requires a.date == b.date
    ensures IsOrdering([a, b], [a, b], DateKey, ascending)
    ensures IsOrdering([b, a], [a, b], DateKey, ascending)
  {
    assert multiset([b, a]) == multiset([a, b]);
  }

  /** The header total: the sum of the listed amounts, which is the sum over
      the kept expenses in any order, and 0 when nothing is listed. */
  lemma TotalIsKeptSum(store: seq<Expense>, cats: seq<Category>, b: Browser)
    ensures Sum(Query(store, cats, b)) == Sum(Filter(store, KeepsFn(b, cats)))
    ensures Query(store, cats, b) == [] ==> Sum(Query(store, cats, b)) == 0
  {
    SumPermutation(Query(store, cats, b), Filter(store, KeepsFn(b, cats)));
  }

  /** `groupExpensesByDate` over the listed expenses: the groups partition
      the list by date label, in first-occurrence order, each keeping list
      order. */
  lemma ShownGroupsPartition(store: seq<Expense>, cats: seq<Category>, b: Browser)
    ensures var r := Query(store, cats, b);
      var gs := GroupBy(r, ExpenseLabel);
      && DistinctKeys(gs)
      && (forall i :: 0 <= i < |gs| ==> gs[i].items == WithKey(r, ExpenseLabel, gs[i].key) && gs[i].items != [])
      && (forall e :: e in r ==> exists i :: 0 <= i < |gs| && gs[i].key == ExpenseLabel(e))
      && (forall i, j :: 0 <= i < j < |gs| ==>
            FirstIndex(r, ExpenseLabel, gs[i].key) < FirstIndex(r, ExpenseLabel, gs[j].key))
      && |Flatten(gs)| == |r|
  {
    var r := Query(store, cats, b);
    GroupByPartition(r, ExpenseLabel);
    GroupByFirstOccurrence(r, ExpenseLabel);
    GroupBySizes(r, ExpenseLabel);
  }
}

=== FILE: grouping.dfy ===
/** The insertion-ordered group-by that three components build with
    `reduce` over a `Record<string, T[]>`: for each element in turn, push it
    onto the array stored under its key, creating the array (as a new, last
    property) the first time the key is seen. `Object.entries` then lists
    the groups in property-creation order. */
module Grouping {
  import opened Seqs

  datatype Group<K, V> = Group(key: K, items: seq<V>)

  /** One reduce step: push `v` onto the group keyed `k`, or open that group
      at the end. */
  function Place<K(==), V>(gs: seq<Group<K, V>>, k: K, v: V): seq<Group<K, V>>
  {
    if gs == [] then [Group(k, [v])]
    else if gs[0].key == k then [gs[0].(items := gs[0].items + [v])] + gs[1..]
    else [gs[0]] + Place(gs[1..], k, v)
  }

  /** `s.reduce(...)` followed by `Object.entries`, as a left fold. */
  function GroupBy<K(==), V>(s: seq<V>, key: V -> K): seq<Group<K, V>>
  {
    if s == [] then []
    else Place(GroupBy(s[..|s| - 1], key), key(s[|s| - 1]), s[|s| - 1])
  }

  function Keys<K, V>(gs: seq<Group<K, V>>): (ks: seq<K>)
    ensures |ks| == |gs|
    ensures forall i :: 0 <= i < |gs| ==> ks[i] == gs[i].key
  {
    if gs == [] then [] else [gs[0].key] + Keys(gs[1..])
  }

  /** The groups' items, concatenated in group order. */
  function Flatten<K, V>(gs: seq<Group<K, V>>): seq<V>
  {
    if gs == [] then [] else gs[0].items + Flatten(gs[1..])
  }

  /** The sub-sequence of `s` whose key is `k`: the intended content of
      group `k`. */
  function WithKey<K(==), V>(s: seq<V>, key: V -> K, k: K): seq<V>
  {
    Filter(s, (v: V) => key(v) == k)
  }

  /** Position of the first element of `s` with key `k`, or `|s|`. */
  function FirstIndex<K(==), V>(s: seq<V>, key: V -> K, k: K): (n: nat)
    ensures n <= |s|
    ensures forall q :: 0 <= q < n ==> key(s[q]) != k
    ensures n < |s| ==> key(s[n]) == k
  {
    if s == [] then 0 else if key(s[0]) == k then 0 else 1 + FirstIndex(s[1..], key, k)
  }

  /** Elements with equal keys form one block each. */
  ghost predicate Contiguous<K, V>(s: seq<V>, key: V -> K)
  {
    forall a, b, c :: 0 <= a < b < c < |s| && key(s[a]) == key(s[c]) ==> key(s[b]) == key(s[a])
  }

  ghost predicate DistinctKeys<K, V>(gs: seq<Group<K, V>>)
  {
    forall i, j :: 0 <= i < j < |gs| ==> gs[i].key != gs[j].key
  }

  /** Everything the fold maintains about the groups of `s`. */
  ghost predicate Describes<K, V>(gs: seq<Group<K, V>>, s: seq<V>, key: V -> K)
  {
    && DistinctKeys(gs)
    && (forall i :: 0 <= i < |gs| ==> gs[i].items == WithKey(s, key, gs[i].key))
    && (forall i :: 0 <= i < |gs| ==> FirstIndex(s, key, gs[i].key) < |s|)
    && (forall q :: 0 <= q < |s| ==> key(s[q]) in Keys(gs))
    && (forall i, j :: 0 <= i < j < |gs| ==> FirstIndex(s, key, gs[i].key) < FirstIndex(s, key, gs[j].key))
  }

  // ---- the reduce step -------------------------------------------------

  lemma {:induction false} PlaceExisting<K, V>(gs: seq<Group<K, V>>, j: int, k: K, v: V)
    requires DistinctKeys(gs) && 0 <= j < |gs| && gs[j].key == k
    ensures Place(gs, k, v) == gs[j := Group(k, gs[j].items + [v])]
  {
    if j > 0 {
      assert gs[0].key != k;
      PlaceExisting(gs[1..], j - 1, k, v);
      assert gs[j := Group(k, gs[j].items + [v])] == [gs[0]] + gs[1..][j - 1 := Group(k, gs[j].items + [v])];
    }
  }

  lemma {:induction false} PlaceFresh<K, V>(gs: seq<Group<K, V>>, k: K, v: V)
    requires k !in Keys(gs)
    ensures Place(gs, k, v) == gs + [Group(k, [v])]
  {
    if gs != [] {
      assert gs[0].key == Keys(gs)[0];
      assert Keys(gs[1..]) == Keys(gs)[1..];
      PlaceFresh(gs[1..], k, v);
      assert gs + [Group(k, [v])] == [gs[0]] + (gs[1..] + [Group(k, [v])]);
    }
  }

  lemma {:induction false} PlaceFlatten<K, V>(gs: seq<Group<K, V>>, k: K, v: V)
    ensures multiset(Flatten(Place(gs, k, v))) == multiset(Flatten(gs)) + multiset{v}
  {
    if gs != [] {
      if gs[0].key == k {
        assert Place(gs, k, v)[1..] == gs[1..];
      } else {
        assert Place(gs, k, v)[1..] == Place(gs[1..], k, v);
        PlaceFlatten(gs[1..], k, v);
      }
    }
  }

  lemma WithKeySnoc<K, V>(s: seq<V>, x: V, key: V -> K, k: K)
    ensures WithKey(s + [x], key, k) == WithKey(s, key, k) + (if key(x) == k then [x] else [])
  {
    FilterAppend(s, [x], (v: V) => key(v) == k);
  }

  lemma {:induction false} FirstIndexSnoc<K, V>(s: seq<V>, x: V, key: V -> K, k: K)
    ensures FirstIndex(s + [x], key, k) ==
      if FirstIndex(s, key, k) < |s| then FirstIndex(s, key, k)
      else if key(x) == k then |s| else |s| + 1
  {
    if s != [] {
      assert (s + [x])[0] == s[0];
      if key(s[0]) != k {
        assert (s + [x])[1..] == s[1..] + [x];
        FirstIndexSnoc(s[1..], x, key, k);
      }
    }
  }

  lemma InKeys<K, V>(gs: seq<Group<K, V>>, k: K)
    ensures k in Keys(gs) <==> exists i :: 0 <= i < |gs| && gs[i].key == k
  {
    if k in Keys(gs) {
      var i :| 0 <= i < |Keys(gs)| && Keys(gs)[i] == k;
      assert gs[i].key == k;
    }
  }

  /** One fold step keeps `Describes`. */
  lemma StepDescribes<K, V>(gs: seq<Group<K, V>>, s: seq<V>, x: V, key: V -> K)
    requires Describes(gs, s, key)
    ensures Describes(Place(gs, key(x), x), s + [x], key)
  {
    InKeys(gs, key(x));
    if key(x) in Keys(gs) {
      var j :| 0 <= j < |gs| && gs[j].key == key(x);
      PlaceExisting(gs, j, key(x), x);
      StepExisting(gs, s, x, key, j);
    } else {
      PlaceFresh(gs, key(x), x);
      StepFresh(gs, s, x, key);
    }
  }

  lemma StepExisting<K, V>(gs: seq<Group<K, V>>, s: seq<V>, x: V, key: V -> K, j: int)
    requires Describes(gs, s, key) && 0 <= j < |gs| && gs[j].key == key(x)
    ensures Describes(gs[j := Group(key(x), gs[j].items + [x])], s + [x], key)
  {
    var gs' := gs[j := Group(key(x), gs[j].items + [x])];
    SameKeys(gs, gs');
    ExistingItems(gs, s, x, key, j);
    SnocFirstIndex(gs, s, x, key);
    assert Keys(gs)[j] == key(x);
    SnocCovered(s, x, key, Keys(gs));
    ExistingOrder(gs, s, x, key, j);
  }

  lemma ExistingOrder<K, V>(gs: seq<Group<K, V>>, s: seq<V>, x: V, key: V -> K, j: int)
    requires 0 <= j < |gs| && gs[j].key == key(x)
    requires forall i :: 0 <= i < |gs| ==> FirstIndex(s, key, gs[i].key) < |s|
    requires forall i, j :: 0 <= i < j < |gs| ==> FirstIndex(s, key, gs[i].key) < FirstIndex(s, key, gs[j].key)
    ensures var gs' := gs[j := Group(key(x), gs[j].items + [x])];
      forall i, j :: 0 <= i < j < |gs'| ==> FirstIndex(s + [x], key, gs'[i].key) < FirstIndex(s + [x], key, gs'[j].key)
  {
    SnocFirstIndex(gs, s, x, key);
  }

  lemma ExistingItems<K, V>(gs: seq<Group<K, V>>, s: seq<V>, x: V, key: V -> K, j: int)
    requires DistinctKeys(gs) && 0 <= j < |gs| && gs[j].key == key(x)
    requires forall i :: 0 <= i < |gs| ==> gs[i].items == WithKey(s, key, gs[i].key)
    ensures var gs' := gs[j := Group(key(x), gs[j].items + [x])];
      forall i :: 0 <= i < |gs'| ==> gs'[i].items == WithKey(s + [x], key, gs'[i].key)
  {
    forall i | 0 <= i < |gs| {
      WithKeySnoc(s, x, key, gs[i].key);
    }
  }

  lemma SnocFirstIndex<K, V>(gs: seq<Group<K, V>>, s: seq<V>, x: V, key: V -> K)
    requires forall i :: 0 <= i < |gs| ==> FirstIndex(s, key, gs[i].key) < |s|
    ensures forall i :: 0 <= i < |gs| ==> FirstIndex(s + [x], key, gs[i].key) == FirstIndex(s, key, gs[i].key)
  {
    forall i | 0 <= i < |gs| {
      FirstIndexSnoc(s, x, key, gs[i].key);
    }
  }

  lemma SameKeys<K, V>(gs: seq<Group<K, V>>, gs': seq<Group<K, V>>)
    requires |gs| == |gs'| && forall i :: 0 <= i < |gs| ==> gs'[i].key == gs[i].key
    ensures Keys(gs') == Keys(gs)
  {
  }

  lemma SnocCovered<K, V>(s: seq<V>, x: V, key: V -> K, ks: seq<K>)
    requires forall q :: 0 <= q < |s| ==> key(s[q]) in ks
    requires key(x) in ks
    ensures forall q :: 0 <= q < |s + [x]| ==> key((s + [x])[q]) in ks
  {
  }

  lemma StepFresh<K, V>(gs: seq<Group<K, V>>, s: seq<V>, x: V, key: V -> K)
    requires Describes(gs, s, key) && key(x) !in Keys(gs)
    ensures Describes(gs + [Group(key(x), [x])], s + [x], key)
  {
    var k := key(x);
    var gs' := gs + [Group(k, [x])];
    InKeys(gs, k);
    DistinctSnoc(gs, Group(k, [x]));
    FreshFirstIndex(s, x, key, Keys(gs));
    FreshItems(gs, s, x, key);
    FreshCovered(gs, s, x, key);
    FreshOrder(gs, s, x, key);
  }

  lemma FreshCovered<K, V>(gs: seq<Group<K, V>>, s: seq<V>, x: V, key: V -> K)
    requires forall q :: 0 <= q < |s| ==> key(s[q]) in Keys(gs)
    ensures var gs' := gs + [Group(key(x), [x])];
      forall q :: 0 <= q < |s + [x]| ==> key((s + [x])[q]) in Keys(gs')
  {
    var gs' := gs + [Group(key(x), [x])];
    assert Keys(gs') == Keys(gs) + [key(x)];
    SnocCovered(s, x, key, Keys(gs'));
  }

  lemma FreshOrder<K, V>(gs: seq<Group<K, V>>, s: seq<V>, x: V, key: V -> K)
    requires forall i :: 0 <= i < |gs| ==> FirstIndex(s, key, gs[i].key) < |s|
    requires forall i, j :: 0 <= i < j < |gs| ==> FirstIndex(s, key, gs[i].key) < FirstIndex(s, key, gs[j].key)
    requires FirstIndex(s + [x], key, key(x)) == |s|
    ensures var gs' := gs + [Group(key(x), [x])];
      && (forall i :: 0 <= i < |gs'| ==> FirstIndex(s + [x], key, gs'[i].key) < |s + [x]|)
      && (forall i, j :: 0 <= i < j < |gs'| ==> FirstIndex(s + [x], key, gs'[i].key) < FirstIndex(s + [x], key, gs'[j].key))
  {
    SnocFirstIndex(gs, s, x, key);
    var gs' := gs + [Group(key(x), [x])];
    assert forall i :: 0 <= i < |gs| ==> gs'[i] == gs[i];
  }

  lemma FreshFirstIndex<K, V>(s: seq<V>, x: V, key: V -> K, ks: seq<K>)
    requires forall q :: 0 <= q < |s| ==> key(s[q]) in ks
    requires key(x) !in ks
    ensures FirstIndex(s + [x], key, key(x)) == |s|
    ensures WithKey(s, key, key(x)) == []
  {
    FirstIndexSnoc(s, x, key, key(x));
    FilterNone(s, (v: V) => key(v) == key(x));
  }

  lemma FreshItems<K, V>(gs: seq<Group<K, V>>, s: seq<V>, x: V, key: V -> K)
    requires WithKey(s, key, key(x)) == []
    requires forall i :: 0 <= i < |gs| ==> gs[i].key != key(x)
    requires forall i :: 0 <= i < |gs| ==> gs[i].items == WithKey(s, key, gs[i].key)
    ensures var gs' := gs + [Group(key(x), [x])];
      forall i :: 0 <= i < |gs'| ==> gs'[i].items == WithKey(s + [x], key, gs'[i].key)
  {
    forall i | 0 <= i < |gs| + 1 {
      WithKeySnoc(s, x, key, (gs + [Group(key(x), [x])])[i].key);
    }
  }

  lemma {:induction false} GroupByDescribes<K, V>(s: seq<V>, key: V -> K)
    ensures Describes(GroupBy(s, key), s, key)
    decreases |s|
  {
    if s != [] {
      var init := s[..|s| - 1];
      var x := s[|s| - 1];
      assert init + [x] == s;
      assert GroupBy(s, key) == Place(GroupBy(init, key), key(x), x);
      GroupByDescribes(init, key);
      StepDescribes(GroupBy(init, key), init, x, key);
    }
  }

  // ---- what the components rely on -------------------------------------

  /** The groups partition `s` by key: keys are distinct, every element's
      key names a group, and group `k` holds exactly the elements with key
      `k`, in input order. */
  lemma GroupByPartition<K, V>(s: seq<V>, key: V -> K)
    ensures var gs := GroupBy(s, key);
      && DistinctKeys(gs)
      && (forall i :: 0 <= i < |gs| ==> gs[i].items == WithKey(s, key, gs[i].key) && gs[i].items != [])
      && (forall x :: x in s ==> exists i :: 0 <= i < |gs| && gs[i].key == key(x))
  {
    var gs := GroupBy(s, key);
    GroupByDescribes(s, key);
    forall i | 0 <= i < |gs| ensures gs[i].items != [] {
      var n := FirstIndex(s, key, gs[i].key);
      assert s[n] in WithKey(s, key, gs[i].key);
    }
    forall x | x in s ensures exists i :: 0 <= i < |gs| && gs[i].key == key(x) {
      var q :| 0 <= q < |s| && s[q] == x;
      InKeys(gs, key(x));
    }
  }

  /** Every element lands in exactly one group: the groups hold the same
      multiset of elements as `s`, so their sizes add up to `|s|`. */
  lemma {:induction false} GroupBySizes<K, V>(s: seq<V>, key: V -> K)
    ensures multiset(Flatten(GroupBy(s, key))) == multiset(s)
    ensures |Flatten(GroupBy(s, key))| == |s|
    decreases |s|
  {
    if s != [] {
      var init, x := s[..|s| - 1], s[|s| - 1];
      assert init + [x] == s;
      GroupBySizes(init, key);
      assert GroupBy(s, key) == Place(GroupBy(init, key), key(x), x);
      PlaceFlatten(GroupBy(init, key), key(x), x);
      assert multiset(s) == multiset(init) + multiset{x};
      assert |multiset(Flatten(GroupBy(s, key)))| == |multiset(s)|;
    }
  }

  /** Groups appear in the order in which their keys first occur in `s`. */
  lemma GroupByFirstOccurrence<K, V>(s: seq<V>, key: V -> K)
    ensures var gs := GroupBy(s, key);
      forall i, j :: 0 <= i < j < |gs| ==> FirstIndex(s, key, gs[i].key) < FirstIndex(s, key, gs[j].key)
  {
    GroupByDescribes(s, key);
  }

  lemma FlattenSnocLast<K, V>(gs: seq<Group<K, V>>, g: Group<K, V>, x: V)
    requires gs != [] && g == gs[|gs| - 1]
    ensures Flatten(gs[|gs| - 1 := Group(g.key, g.items + [x])]) == Flatten(gs) + [x]
  {
    if |gs| > 1 {
      assert gs[|gs| - 1 := Group(g.key, g.items + [x])][1..] == gs[1..][|gs| - 2 := Group(g.key, g.items + [x])];
      FlattenSnocLast(gs[1..], g, x);
    }
  }

  lemma FlattenSnoc<K, V>(gs: seq<Group<K, V>>, g: Group<K, V>)
    ensures Flatten(gs + [g]) == Flatten(gs) + g.items
  {
    if gs != [] {
      assert (gs + [g])[1..] == gs[1..] + [g];
      FlattenSnoc(gs[1..], g);
    }
  }

  lemma ContiguousPrefix<K, V>(s: seq<V>, key: V -> K)
    requires s != [] && Contiguous(s, key)
    ensures Contiguous(s[..|s| - 1], key)
  {
    var init := s[..|s| - 1];
    forall a, b, c | 0 <= a < b < c < |init| && key(init[a]) == key(init[c])
      ensures key(init[b]) == key(init[a])
    {
      assert init[a] == s[a] && init[b] == s[b] && init[c] == s[c];
    }
  }

  /** In a contiguous sequence, the last element's key, if already seen,
      belongs to the most recently opened group. */
  lemma ExistingIsLast<K, V>(gs: seq<Group<K, V>>, s: seq<V>, key: V -> K, j: int)
    requires s != [] && Contiguous(s, key)
    requires 0 <= j < |gs| && gs[j].key == key(s[|s| - 1])
    requires forall i :: 0 <= i < |gs| ==> FirstIndex(s[..|s| - 1], key, gs[i].key) < |s| - 1
    requires forall i, i' :: 0 <= i < i' < |gs| ==>
      FirstIndex(s[..|s| - 1], key, gs[i].key) < FirstIndex(s[..|s| - 1], key, gs[i'].key)
    ensures j == |gs| - 1
  {
    var init := s[..|s| - 1];
    var p := FirstIndex(init, key, gs[j].key);
    var q := FirstIndex(init, key, gs[|gs| - 1].key);
    assert s[p] == init[p] && s[q] == init[q];
    if j < |gs| - 1 {
      assert false;
    }
  }

  /** The ordering facts of `Describes`, on their own. */
  lemma GroupByOrderFacts<K, V>(s: seq<V>, key: V -> K)
    ensures var gs := GroupBy(s, key);
      && DistinctKeys(gs)
      && (forall q :: 0 <= q < |s| ==> key(s[q]) in Keys(gs))
      && (forall i :: 0 <= i < |gs| ==> FirstIndex(s, key, gs[i].key) < |s|)
      && (forall i, j :: 0 <= i < j < |gs| ==> FirstIndex(s, key, gs[i].key) < FirstIndex(s, key, gs[j].key))
  {
    GroupByDescribes(s, key);
  }

  lemma ContiguousStep<K, V>(gs: seq<Group<K, V>>, s: seq<V>, key: V -> K)
    requires s != [] && Contiguous(s, key) && Flatten(gs) == s[..|s| - 1]
    requires DistinctKeys(gs)
    requires forall i :: 0 <= i < |gs| ==> FirstIndex(s[..|s| - 1], key, gs[i].key) < |s| - 1
    requires forall i, i' :: 0 <= i < i' < |gs| ==>
      FirstIndex(s[..|s| - 1], key, gs[i].key) < FirstIndex(s[..|s| - 1], key, gs[i'].key)
    ensures Flatten(Place(gs, key(s[|s| - 1]), s[|s| - 1])) == s
  {
    var x := s[|s| - 1];
    var k := key(x);
    assert s[..|s| - 1] + [x] == s;
    InKeys(gs, k);
    if k in Keys(gs) {
      var j :| 0 <= j < |gs| && gs[j].key == k;
      ExistingIsLast(gs, s, key, j);
      PlaceExisting(gs, j, k, x);
      FlattenSnocLast(gs, gs[j], x);
    } else {
      PlaceFresh(gs, k, x);
      FlattenSnoc(gs, Group(k, [x]));
    }
  }

  /** When equal keys are adjacent in `s`, concatenating the groups gives
      back `s` itself. */
  lemma {:induction false} GroupByContiguous<K, V>(s: seq<V>, key: V -> K)
    requires Contiguous(s, key)
    ensures Flatten(GroupBy(s, key)) == s
    decreases |s|
  {
    if s != [] {
      var init := s[..|s| - 1];
      GroupBySnoc(init, s[|s| - 1], key);
      assert init + [s[|s| - 1]] == s;
      ContiguousPrefix(s, key);
      GroupByContiguous(init, key);
      GroupByOrderFacts(init, key);
      ContiguousStep(GroupBy(init, key), s, key);
    }
  }

  lemma DistinctSnoc<K, V>(gs: seq<Group<K, V>>, g: Group<K, V>)
    requires DistinctKeys(gs) && g.key !in Keys(gs)
    ensures DistinctKeys(gs + [g])
  {
    forall i | 0 <= i < |gs| ensures gs[i].key != g.key {
      assert Keys(gs)[i] == gs[i].key;
    }
  }

  lemma GroupBySnoc<K, V>(s: seq<V>, x: V, key: V -> K)
    ensures GroupBy(s + [x], key) == Place(GroupBy(s, key), key(x), x)
  {
    assert (s + [x])[..|s + [x]| - 1] == s;
  }

  /** Appending a block of elements that all carry one new key appends one
      group holding the block. */
  lemma {:induction false} GroupByAppendBlock<K, V>(s: seq<V>, t: seq<V>, key: V -> K, k: K)
    requires t != [] && forall i :: 0 <= i < |t| ==> key(t[i]) == k
    requires k !in Keys(GroupBy(s, key))
    ensures GroupBy(s + t, key) == GroupBy(s, key) + [Group(k, t)]
    decreases |t|
  {
    var x := t[|t| - 1];
    var init := t[..|t| - 1];
    assert s + t == (s + init) + [x];
    GroupBySnoc(s + init, x, key);
    if init == [] {
      assert s + init == s;
      PlaceFresh(GroupBy(s, key), k, x);
      assert t == [x];
    } else {
      GroupByAppendBlock(s, init, key, k);
      var gs := GroupBy(s, key) + [Group(k, init)];
      GroupByDescribes(s, key);
      DistinctSnoc(GroupBy(s, key), Group(k, init));
      PlaceExisting(gs, |gs| - 1, k, x);
      assert init + [x] == t;
      assert gs[|gs| - 1 := Group(k, init + [x])] == GroupBy(s, key) + [Group(k, t)];
    }
  }

  /** Without adjacency the concatenation can differ from the input:
      `[1, 2, 1]` groups as `[1, 1]`, `[2]`. */
  lemma GroupByReorders()
    ensures Flatten(GroupBy([1, 2, 1], (n: int) => n)) == [1, 1, 2]
  {
    assert [1, 2, 1][..2] == [1, 2];
    assert [1, 2][..1] == [1];
    assert [1][..0] == [];
    var g1 := [Group(1, [1])];
    assert GroupBy([1], (n: int) => n) == g1;
    assert GroupBy([1, 2], (n: int) => n) == Place(g1, 2, 2);
    assert Place(g1, 2, 2) == [Group(1, [1])] + Place([], 2, 2);
    var g2 := [Group(1, [1]), Group(2, [2])];
    assert GroupBy([1, 2, 1], (n: int) => n) == Place(g2, 1, 1);
    assert Place(g2, 1, 1) == [Group(1, [1] + [1])] + g2[1..];
    assert [1] + [1] == [1, 1];
    assert Flatten([Group(1, [1, 1]), Group(2, [2])]) == [1, 1] + Flatten([Group(2, [2])]);
  }
}

=== FILE: ordering.dfy ===
/** Single-key ordering, as the backend's `.order(column, { ascending })`
    applies it: the result is a permutation of the input whose keys are
    monotone in the requested direction. Nothing is said about the order of
    elements with equal keys; `Sort` fixes one admissible choice. */
module Ordering {

  import opened Seqs

  /** `x` may come before `y`: `x <= y` ascending, `x >= y` descending. */
  predicate InOrder(x: int, y: int, ascending: bool)
  {
    if ascending then x <= y else x >= y
  }

  /** Every earlier element's key is in order with every later element's key. */
  predicate Ordered<T>(s: seq<T>, key: T -> int, ascending: bool)
  {
    forall i, j :: 0 <= i < j < |s| ==> InOrder(key(s[i]), key(s[j]), ascending)
  }

  /** `r` is an admissible answer to ordering `s` by `key`. */
  ghost predicate IsOrdering<T>(r: seq<T>, s: seq<T>, key: T -> int, ascending: bool)
  {
    multiset(r) == multiset(s) && Ordered(r, key, ascending)
  }

  /** Insert `x` before the first element of `s` it may precede. */
  function Insert<T>(x: T, s: seq<T>, key: T -> int, ascending: bool): (r: seq<T>)
    ensures multiset(r) == multiset(s) + multiset{x}
    ensures |r| == |s| + 1
  {
    if s == [] then [x]
    else if InOrder(key(x), key(s[0]), ascending) then [x] + s
    else
      assert s == [s[0]] + s[1..];
      [s[0]] + Insert(x, s[1..], key, ascending)
  }

  /** Inserting into an ordered sequence keeps it ordered. */
  lemma {:induction false} InsertOrdered<T>(x: T, s: seq<T>, key: T -> int, ascending: bool)
    requires Ordered(s, key, ascending)
    ensures Ordered(Insert(x, s, key, ascending), key, ascending)
  {
    if s != [] && !InOrder(key(x), key(s[0]), ascending) {
      var rest := Insert(x, s[1..], key, ascending);
      InsertOrdered(x, s[1..], key, ascending);
      forall i | 0 <= i < |rest| ensures InOrder(key(s[0]), key(rest[i]), ascending) {
        assert rest[i] in multiset(rest);
        if rest[i] != x {
          assert rest[i] in multiset(s[1..]);
          var j :| 0 <= j < |s[1..]| && s[1..][j] == rest[i];
          assert s[1 + j] == rest[i];
        }
      }
    }
  }

  /** One ordering of `s` by `key` (insertion sort). */
  function Sort<T>(s: seq<T>, key: T -> int, ascending: bool): (r: seq<T>)
    ensures IsOrdering(r, s, key, ascending)
    ensures |r| == |s|
  {
    if s == [] then []
    else
      assert s == [s[0]] + s[1..];
      var rest := Sort(s[1..], key, ascending);
      InsertOrdered(s[0], rest, key, ascending);
      Insert(s[0], rest, key, ascending)
  }

  /** Reading an ascending ordering backwards gives a descending one, and
      vice versa: the order switch only flips the direction. */
  lemma ReverseOrdered<T>(s: seq<T>, key: T -> int, ascending: bool)
    requires Ordered(s, key, ascending)
    ensures Ordered(Reverse(s), key, !ascending)
  {
    var r := Reverse(s);
    forall i, j | 0 <= i < j < |r| ensures InOrder(key(r[i]), key(r[j]), !ascending) {
      assert r[i] == s[|s| - 1 - i] && r[j] == s[|s| - 1 - j];
    }
  }

  /** The first `n` elements (`.limit(n)`). */
  function Take<T>(s: seq<T>, n: nat): (r: seq<T>)
    ensures |r| == (if |s| < n then |s| else n)
    ensures r == s[..|r|]
  {
    if |s| <= n then s else s[..n]
  }
}

=== FILE: seqs.dfy ===
/** Generic sequence vocabulary shared by every component: an Option type,
    an order-preserving filter, the subsequence relation and reversal. */
module Seqs {

  datatype Option<+T> = None | Some(value: T)

  /** `s.filter(p)`: the elements of `s` satisfying `p`, in their original order. */
  function Filter<T>(s: seq<T>, p: T -> bool): (r: seq<T>)
    ensures |r| <= |s|
    ensures forall x :: x in r ==> x in s && p(x)
    ensures forall x :: x in s && p(x) ==> x in r
    ensures forall i :: 0 <= i < |r| ==> p(r[i])
  {
    if s == [] then [] else (if p(s[0]) then [s[0]] else []) + Filter(s[1..], p)
  }

  /** `a` can be obtained from `b` by deleting elements (order kept). */
  predicate IsSubsequence<T(==)>(a: seq<T>, b: seq<T>)
  {
    if a == [] then true
    else if b == [] then false
    else if a[0] == b[0] then IsSubsequence(a[1..], b[1..])
    else IsSubsequence(a, b[1..])
  }

  lemma {:induction false} FilterIsSubsequence<T>(s: seq<T>, p: T -> bool)
    ensures IsSubsequence(Filter(s, p), s)
  {
    if s != [] {
      FilterIsSubsequence(s[1..], p);
      var rest := Filter(s[1..], p);
      if p(s[0]) {
        assert Filter(s, p) == [s[0]] + rest;
        assert ([s[0]] + rest)[1..] == rest;
      } else {
        assert Filter(s, p) == rest;
        if rest != [] {
          assert p(rest[0]);
          assert rest[0] != s[0];
        }
      }
    }
  }

  /** Filtering with a predicate every element satisfies changes nothing. */
  lemma {:induction false} FilterAll<T>(s: seq<T>, p: T -> bool)
    requires forall i :: 0 <= i < |s| ==> p(s[i])
    ensures Filter(s, p) == s
  {
    if s != [] {
      FilterAll(s[1..], p);
    }
  }

  /** Filtering with a predicate no element satisfies yields nothing. */
  lemma {:induction false} FilterNone<T>(s: seq<T>, p: T -> bool)
    requires forall i :: 0 <= i < |s| ==> !p(s[i])
    ensures Filter(s, p) == []
  {
    if s != [] {
      FilterNone(s[1..], p);
    }
  }

  /** Filters with predicates that agree on the elements of `s` agree. */
  lemma {:induction false} FilterCongruent<T>(s: seq<T>, p: T -> bool, q: T -> bool)
    requires forall i :: 0 <= i < |s| ==> p(s[i]) == q(s[i])
    ensures Filter(s, p) == Filter(s, q)
  {
    if s != [] {
      FilterCongruent(s[1..], p, q);
    }
  }

  /** Filtering distributes over concatenation. */
  lemma {:induction false} FilterAppend<T>(a: seq<T>, b: seq<T>, p: T -> bool)
    ensures Filter(a + b, p) == Filter(a, p) + Filter(b, p)
  {
    if a == [] {
      assert a + b == b;
    } else {
      assert (a + b)[0] == a[0];
      assert (a + b)[1..] == a[1..] + b;
      FilterAppend(a[1..], b, p);
    }
  }

  /** `Array.prototype.reverse`. */
  function Reverse<T>(s: seq<T>): (r: seq<T>)
    ensures |r| == |s|
    ensures forall i :: 0 <= i < |s| ==> r[i] == s[|s| - 1 - i]
  {
    if s == [] then [] else Reverse(s[1..]) + [s[0]]
  }

  /** `s.find(p)`: the first element satisfying `p`, if there is one. */
  function Find<T(==)>(s: seq<T>, p: T -> bool): (r: Option<T>)
    ensures r.None? <==> forall i :: 0 <= i < |s| ==> !p(s[i])
    ensures r.Some? ==> exists i :: 0 <= i < |s| && s[i] == r.value && p(s[i])
                                    && forall j :: 0 <= j < i ==> !p(s[j])
  {
    if s == [] then None
    else if p(s[0]) then Some(s[0])
    else
      var r := Find(s[1..], p);
      assert r.Some? ==> exists i :: 0 <= i < |s[1..]| && s[1..][i] == r.value && p(s[1..][i])
                                     && forall j :: 0 <= j < i ==> !p(s[1..][j]);
      if r.Some? then
        var i :| 0 <= i < |s[1..]| && s[1..][i] == r.value && p(s[1..][i])
                 && forall j :: 0 <= j < i ==> !p(s[1..][j]);
        assert forall j :: 1 <= j < i + 1 ==> s[j] == s[1..][j - 1];
        r
      else r
  }

  /** Pairwise distinct elements. */
  predicate NoDuplicates<T(==)>(s: seq<T>)
  {
    forall i, j :: 0 <= i < j < |s| ==> s[i] != s[j]
  }
}

=== FILE: text.dfy ===
/** The string operations the components use: `toLowerCase`, `includes`,
    `trim` and `endsWith`. Strings are sequences of UTF-16 code units. */
module Text {

  /** Lower-casing of one code unit; only the ASCII letters are mapped. */
  function LowerChar(c: char): char
  {
    if 'A' <= c <= 'Z' then (c as int + 32) as char else c
  }

  /** `s.toLowerCase()`, restricted to ASCII case mapping. */
  function ToLower(s: string): (r: string)
    ensures |r| == |s|
    ensures forall i :: 0 <= i < |s| ==> r[i] == LowerChar(s[i])
  {
    if s == [] then [] else [LowerChar(s[0])] + ToLower(s[1..])
  }

  lemma {:induction false} ToLowerIdempotent(s: string)
    ensures ToLower(ToLower(s)) == ToLower(s)
  {
    if s != [] {
      ToLowerIdempotent(s[1..]);
      assert ToLower(s)[1..] == ToLower(s[1..]);
    }
  }

  predicate IsPrefix(p: string, s: string)
  {
    |p| <= |s| && s[..|p|] == p
  }

  /** `t` occurs in `s` starting at position `i`. */
  ghost predicate OccursAt(s: string, t: string, i: int)
  {
    0 <= i && i + |t| <= |s| && s[i..i + |t|] == t
  }

  /** `s.includes(t)`: `t` is a contiguous piece of `s` (the empty string is
      a piece of every string). */
  predicate Contains(s: string, t: string)
    decreases |s|
  {
    IsPrefix(t, s) || (|s| > 0 && Contains(s[1..], t))
  }

  /** `Contains` holds exactly when some occurrence position exists. */
  lemma {:induction false} ContainsIffOccurs(s: string, t: string)
    ensures Contains(s, t) <==> exists i :: OccursAt(s, t, i)
    decreases |s|
  {
    if IsPrefix(t, s) {
      assert OccursAt(s, t, 0);
    } else if |s| == 0 {
    } else {
      ContainsIffOccurs(s[1..], t);
      if exists i :: OccursAt(s[1..], t, i) {
        var i :| OccursAt(s[1..], t, i);
        assert s[i + 1..i + 1 + |t|] == s[1..][i..i + |t|];
        assert OccursAt(s, t, i + 1);
      }
      if exists i :: OccursAt(s, t, i) {
        var i :| OccursAt(s, t, i);
        if i > 0 {
          assert s[1..][i - 1..i - 1 + |t|] == s[i..i + |t|];
          assert OccursAt(s[1..], t, i - 1);
        }
      }
    }
  }

  lemma {:induction false} ContainsEmpty(s: string)
    ensures Contains(s, "")
  {
    assert IsPrefix("", s);
  }

  /** Every character of a piece occurs in the whole; in particular a
      string lacking the piece's first character does not contain it. */
  lemma {:induction false} ContainsFirstChar(s: string, t: string)
    requires t != [] && Contains(s, t)
    ensures t[0] in s
    decreases |s|
  {
    if !IsPrefix(t, s) {
      ContainsFirstChar(s[1..], t);
    }
  }

  lemma ContainsSelf(s: string)
    ensures Contains(s, s)
  {
    assert s[..|s|] == s;
  }

  /** The code units `String.prototype.trim` removes: ECMAScript's WhiteSpace
      (tab, vertical tab, form feed, U+FEFF and every space separator of
      category Zs) and LineTerminator (LF, CR, U+2028, U+2029). */
  predicate IsWhitespace(c: char)
  {
    c == ' ' || c == '\t' || c == '\n' || c == '\r' || c == '\U{000B}' || c == '\U{000C}'
    || c == '\U{00A0}' || c == '\U{1680}' || ('\U{2000}' <= c <= '\U{200A}')
    || c == '\U{2028}' || c == '\U{2029}' || c == '\U{202F}' || c == '\U{205F}'
    || c == '\U{3000}' || c == '\U{FEFF}'
  }

  /** An ideographic space in front of a term is trimmed away like an ASCII
      one. */
  lemma TrimIdeographicSpace()
    ensures Trim("\U{3000}lunch") == "lunch"
    ensures Trim(" lunch\U{00A0}") == "lunch"
  {
    assert "\U{3000}lunch"[1..] == "lunch";
    assert " lunch\U{00A0}"[1..][..5] == "lunch";
  }

  predicate AllWhitespace(s: string)
  {
    forall i :: 0 <= i < |s| ==> IsWhitespace(s[i])
  }

  /** Neither end of `s` is whitespace. */
  predicate IsTrimmed(s: string)
  {
    s == [] || (!IsWhitespace(s[0]) && !IsWhitespace(s[|s| - 1]))
  }

  /** Number of leading whitespace code units. */
  function LeadingSpace(s: string): (n: nat)
    ensures n <= |s|
    ensures forall k :: 0 <= k < n ==> IsWhitespace(s[k])
    ensures n < |s| ==> !IsWhitespace(s[n])
  {
    if s == [] || !IsWhitespace(s[0]) then 0
    else 1 + LeadingSpace(s[1..])
  }
  /** Number of trailing whitespace code units. */
  function TrailingSpace(s: string): (n: nat)
    ensures n <= |s|
    ensures forall k :: |s| - n <= k < |s| ==> IsWhitespace(s[k])
    ensures n < |s| ==> !IsWhitespace(s[|s| - 1 - n])
  {
    if s == [] || !IsWhitespace(s[|s| - 1]) then 0
    else 1 + TrailingSpace(s[..|s| - 1])
  }
  /** `s.trim()`: `s` with its leading and trailing whitespace removed. The
      result is a trimmed piece of `s` and only whitespace was removed. */
  function Trim(s: string): (r: string)
    ensures IsTrimmed(r)
    ensures |r| <= |s|
    ensures exists i :: 0 <= i <= |s| - |r| && s[i..i + |r|] == r
                        && AllWhitespace(s[..i]) && AllWhitespace(s[i + |r|..])
    ensures r == [] <==> AllWhitespace(s)
  {
    var a := LeadingSpace(s);
    if a == |s| then
      assert AllWhitespace(s[..a]) && AllWhitespace(s[a..]);
      []
    else
      var b := TrailingSpace(s);
      assert b < |s| - a;
      var r := s[a..|s| - b];
      assert AllWhitespace(s[..a]);
      assert AllWhitespace(s[a + |r|..]);
      assert !AllWhitespace(s) by { assert !IsWhitespace(s[a]); }
      r
  }

  function EndsWith(s: string, suffix: string): bool
  {
    |suffix| <= |s| && s[|s| - |suffix|..] == suffix
  }
}
